=== FILE: README.md ===
# Solana signature indexer: checkpointed walker, orchestrator and watchdog

This project models the core of a TypeScript service. The service walks the transaction
signatures of one Solana program address. It publishes them in batches to a queue, and it keeps
its progress in two DynamoDB items: the backfill checkpoint and the frontfill checkpoint.

- **Backfill** walks backward from the chain head, or from a stored cursor, to the program's
  first transaction.
- **Frontfill** then walks forward from the chain head down to the stored anchor, over and over.
  Within one call it drops repeats among entries that share the anchor's `(blockTime, slot)`;
  the tie set starts empty on every call, so a tie reordered across two polls is published twice.
- A **watchdog** ends the process when neither checkpoint has changed for thirty minutes.

The model is pure Dafny functions over immutable values:

- **Table.** The table is a `map` from item id to item. An item is a `map` from attribute name
  to a typed attribute.
- **RPC.** The RPC is an oracle: the finite sequence of responses that successive fetches
  receive, each newest-first. Running out of responses means the RPC call threw.
- **Effects.** Queue sends and checkpoint puts are `Event`s. They are applied to the table in
  the order they are issued.

| file | module | models |
|---|---|---|
| base.dfy | `Base` | `Option` (`undefined`), `Result` (a thrown exception), `Reverse`, `Without` (order-preserving removal of a set of positions) |
| signatures.dfy | `Signatures` | signature records and the all-optional cursor of utils/types.ts |
| checkpoint.dfy | `Checkpoint` | the writers and readers of utils/dynamodb.ts, with their `""`/`0` sentinels |
| tiededup.dfy | `TieDedup` | the frontfill tie deduplication of index.ts:87-155 |
| walker.dfy | `Walker`, `WalkerScenario` | `indexSignaturesForAddress`: retry, step, checkpoint writes, termination; one worked run |
| orchestrator.dfy | `Orchestrator` | the loop of `main`: reset, mode choice, self-heal |
| watchdog.dfy | `Watchdog` | the thirty-minute stall check |

Most properties are stated against an independent description rather than the code path. Two
examples:

- The tie deduplication removes exactly `Dropped`. `Dropped` is a set comprehension over page
  positions, and it is the partner of the scan-and-splice loop.
- The checkpoint codec is connected to its inverse by round-trip lemmas.

A consequence of the design that the model states: a backfill interrupted after its last
progress write and before its completion mark never completes. Each later pass starts from
`incomplete_top`, finds nothing older, and on that first iteration writes nothing
(`Orchestrator.BackfillAtEndRepeats`).

## Model

| member | source | states |
|---|---|---|
| Checkpoint.WriteBackfill | utils/dynamodb.ts:6-36 | a backfill write replaces exactly the item `<network>-backfill-checkpoint` and leaves every other item as it was |
| Checkpoint.WriteFrontfill | utils/dynamodb.ts:78-111 | a frontfill write replaces exactly the item `<network>-frontfill-checkpoint` and leaves every other item as it was |
| Checkpoint.IdsDistinct | utils/dynamodb.ts:21 | the two checkpoint ids of a network never coincide |
| Checkpoint.ReadBackfill | utils/dynamodb.ts:39-75 | as written: a missing item reads as `(undefined, undefined, false)`; an item without a `bottom` attribute throws |
| Checkpoint.ReadBackfillFixed | utils/dynamodb.ts:39-75 | the reader taking the lower bound from `bottom_sig`: a missing item reads as the default record, and a decoded record never holds `""` |
| Checkpoint.ReadFrontfill | utils/dynamodb.ts:114-149 | a missing item reads as all-absent; a decoded record never holds `""` or `0`; a read throws only when the item exists |
| Checkpoint.BackfillReadFaultsOnWrittenItem | utils/dynamodb.ts:22-24 | every item the backfill writer stores makes the as-written reader throw on the missing `bottom` attribute |
| Checkpoint.BackfillRoundTrip | utils/dynamodb.ts:12-24 | write then read through the corrected reader returns the record with a present `""` turned absent; a sentinel-free record comes back exactly |
| Checkpoint.FrontfillRoundTrip | utils/dynamodb.ts:84-101 | write then read returns the record with present `""`/`0` turned absent; a sentinel-free record comes back exactly |
| Checkpoint.FrontfillSentinelCollision | utils/dynamodb.ts:84-92 | two frontfill records are stored as the same item exactly when they agree once a present `""`/`0` is made absent, so a present sentinel cannot be told from an absent field |
| Checkpoint.BackfillSentinelCollision | utils/dynamodb.ts:12-24 | two backfill records are stored as the same item exactly when they agree once a present `""` is made absent |
| Checkpoint.WritesIndependent | utils/dynamodb.ts:21 | a write to one checkpoint leaves what the other checkpoint's reader returns unchanged |
| Signatures.SignaturesOf | index.ts:202 | the batch has one signature per page entry, position by position |
| TieDedup.TriggerWithoutHistory | index.ts:103-112 | with no anchor pair and no previous oldest entry, the deduplication is set off exactly when the two oldest entries share their pair |
| TieDedup.MatchMixesBottoms | index.ts:125 | outside the anchor pair an entry matches by the previous oldest blockTime and the current oldest slot: an entry in the previous oldest slot is missed once the slot moved, and one in the current oldest pair matches exactly when the second did not move |
| TieDedup.ResetIfMoved | index.ts:115-121 | the tie set is kept exactly when the oldest entry shares a component with the tie set's pair or with the anchor pair; otherwise it is replaced by an empty one for the oldest entry's pair |
| TieDedup.Scan | index.ts:123-137 | the scan keeps the tie set's pair and pushes strictly increasing in-page indices |
| TieDedup.ScanRecords | index.ts:125-128 | after the scan the tie set holds the old members plus every matching signature of the scanned range |
| TieDedup.ScanMarksRepeats | index.ts:125-131 | an index is pushed exactly when its entry matches and its signature was already recorded or matched lower in the page |
| TieDedup.ScanAsWrittenIsScan | index.ts:123-137 | the loop written with its `else break` pushes the same indices and leaves the same tie set as `Scan`, from every position and for every page: the break is never taken |
| TieDedup.SpliceOrder | index.ts:141 | the reversed index list is strictly decreasing and holds the same indices |
| TieDedup.SpliceOut | index.ts:144-150 | each listed index removes at most one entry |
| TieDedup.SplicedPositions | index.ts:144-150 | a position is spliced exactly when it is listed and its signature passes the secondary check |
| TieDedup.SpliceOutRemoves | index.ts:144-150 | splicing largest index first removes exactly the listed positions that pass the secondary check, keeping the order of the rest |
| TieDedup.MarkedIsDropped | index.ts:112-137 | the pushed indices are exactly the `Dropped` positions, and each carries a recorded signature |
| TieDedup.SplicedIsDropped | index.ts:139-150 | the positions the splice loop removes are exactly the `Dropped` positions |
| TieDedup.SpliceRemovesDropped | index.ts:139-150 | the splice loop leaves the page without exactly the `Dropped` positions |
| TieDedup.Dedup | index.ts:89-155 | a frontfill page loses exactly `Dropped`, and its oldest entry becomes `prev_bottom`; a backfill or empty page is untouched |
| TieDedup.DedupTieSet | index.ts:112-137 | after a page that sets off the deduplication, the tie set is the kept or reset pair holding its old members plus the signature of every matching entry; after any other page it is unchanged |
| TieDedup.FreshTieSetDropsOnlyRepeats | index.ts:58-60 | with the tie set a call starts with, only a signature repeated lower in the same page can be dropped |
| TieDedup.FreshTieSetKeepsDistinctPage | index.ts:58-60 | a call's first page without repeated signatures is published whole, even when it ties with the anchor |
| TieDedup.ScanPassesMismatch | index.ts:132-134 | on a concrete page, `Dedup` (through `Dropped`) still drops a repeat that sits above a non-matching entry |
| TieDedup.ResetNeedsBothComponents | index.ts:115-121 | a tie set whose pair shares the blockTime or the slot of the oldest entry is kept with all its members, whatever the anchor |
| TieDedup.RecordedSurvivesSlotChange | index.ts:115-131 | a recorded oldest entry that comes back in a new slot of the same second is still dropped, because the tie set is not reset |
| Walker.Init | index.ts:34-60 | the initial loop variables satisfy the walk invariant; the call starts on its first page with an empty tie set and no previous oldest entry, and the early frontfill write is armed exactly for a fresh backfill |
| Walker.RetryFrom | index.ts:70-85 | the retry loop stops at the first non-empty response or after five fetches in all; earlier responses were empty |
| Walker.FetchWithRetries | index.ts:61-85 | at most five fetches; the page is the reversed response; the walk fails exactly when fewer than five responses remain and all are empty |
| Walker.FetchTakesFirstNonEmpty | index.ts:70-85 | the page is the first non-empty response among the first five, reached after one fetch more than the empty ones before it |
| Walker.FetchAllEmpty | index.ts:73 | five empty responses in a row give an empty page after five fetches |
| Walker.Advance | index.ts:159-223 | a page moves `before` to its oldest entry, freezes the frontier on the first page, writes the early frontfill checkpoint once, publishes the page and, in backfill, stores the oldest entry as `incomplete_top` |
| Walker.AdvanceKeepsFrontfill | index.ts:159-223 | without the early write, processing a page leaves the frontfill checkpoint as it was |
| Walker.Finish | index.ts:225-264 | an empty page ends the walk: nothing written if no page was processed; frontfill stores the frontier; backfill marks completion and leaves an anchor |
| Walker.FinishSeedsOnlyWithoutAnchor | index.ts:238-262 | a backfill end after a processed page issues the completion mark, then a frontfill write of the frontier exactly when the frontfill read finds no anchor; an anchored frontfill checkpoint is left unchanged |
| Walker.Process | index.ts:87-265 | one pass on a fetched page keeps the invariant and the frontier; every frontfill write carries the frontier; a pass owing no early write leaves an anchored frontfill checkpoint unwritten in backfill, and unchanged while it goes on |
| Walker.ProcessPublishesKept | index.ts:87-223 | the call stops exactly when the deduplicated page is empty; otherwise that page is published as one batch, its oldest entry bounds the next fetch, its newest is the frontier of a first page, and backfill stores the oldest as `incomplete_top` |
| Walker.Step | index.ts:61-265 | one pass of the loop: the RPC is called only when the earlier responses were empty, then the fetched page is processed |
| Walker.StepHandsOver | index.ts:61-265 | what a pass hands to the rest of the call: the invariant, the frontier, the effects applied to the table; a pass that goes on has spent the early write |
| Walker.Walk | index.ts:61-273 | over the whole call, the invariant holds and the frontier never changes once set; every frontfill write carries the frontier, and there is at most one (two with the early write); a finished backfill leaves an anchor and a completed backfill record; a backfill call owing no early write never writes an anchored frontfill checkpoint |
| Walker.WalkOn | index.ts:61-273 | the rest of a call after a processed page keeps every promise of `Walk`, with that page's effects in front |
| Walker.BackfillWalkKeepsAnchor | index.ts:238-262 | a backfill call owing no early write leaves an anchored frontfill checkpoint exactly as it found it |
| Walker.BackfillWriteHidesBottom | utils/dynamodb.ts:12-24 | once a backfill write is applied the backfill item lacks `bottom` for good, whatever is written after it |
| Walker.WalkLeavesFrontier | index.ts:190-258 | whichever of the three frontfill writes a call made (the early write at :190-195, the frontfill end at :232-237, the anchor seed at :253-258), the checkpoint reads back as the call's frontier |
| Walker.FinishedWalkRecordsFrontier | index.ts:229-237 | a finished frontfill call (or fresh backfill call) that processed a page leaves its frontier readable |
| Walker.BackfillPublishesWholePage | index.ts:89 | backfill never deduplicates: each batch is the whole reversed response |
| Walker.BackfillKeepsPage | index.ts:89 | a backfill pass publishes the whole page it is given |
| WalkerScenario.FreshBackfillRun | index.ts:45-264 | a fresh backfill of C, B, A writes the frontier C first, publishes A, B, C, stores A as `incomplete_top` and then marks completion |
| Orchestrator.PlanWith | index.ts:345-398 | for either lower-bound attribute: a plan throws whatever the backfill read throws, and otherwise only when the frontfill read does; backfill mode exactly when not complete and not frontfill-only, with the stored cursors; frontfill anchors at the stored old top; without an anchor the pass self-heals with the stored cursors and `complete` false |
| Orchestrator.Plan | index.ts:345-392 | backfill mode exactly when not complete and not frontfill-only; frontfill anchors at the stored old top; without an anchor the pass self-heals with the stored cursors and `complete` false |
| Orchestrator.RunPass | index.ts:341-403 | a pass performs the planned action: a walk pass issues exactly the events, leaves exactly the table and makes exactly the fetches of the call `Walk` from the initial state; a self-heal writes only the backfill checkpoint and leaves the frontfill read unchanged |
| Orchestrator.Reset | index.ts:325-339 | a reset rewrites exactly the two checkpoint items |
| Orchestrator.ResetReadsBack | index.ts:325-339 | after a reset both checkpoints read as absent through the corrected reader, while the as-written reader throws |
| Orchestrator.ResetStartsFreshBackfill | index.ts:325-339 | after a reset the next pass is a fresh backfill with the early frontfill write armed; in frontfill-only mode it self-heals instead |
| Orchestrator.SelfHealResumesBackfill | index.ts:365-373 | after a self-heal the next pass resumes backfill from the same cursors |
| Orchestrator.FrontfillOnlyWithoutAnchorStalls | index.ts:353-373 | in frontfill-only mode without an anchor every pass self-heals, and from the second pass on the table stays fixed |
| Orchestrator.BackfillHandsOverToFrontfill | index.ts:238-259 | once a backfill pass that processed a page reaches the end of history, the next pass is a frontfill walk with an anchor |
| Orchestrator.BackfillAtEndRepeats | index.ts:261-263 | a backfill pass whose first fetch round is empty writes nothing and leaves the table as it was, so the next pass plans the same backfill again |
| Orchestrator.ResumedBackfillKeepsAnchor | index.ts:388-398 | a resumed (not fresh) backfill pass leaves an anchored frontfill checkpoint unwritten and unchanged |
| Orchestrator.IdleFrontfillPassWritesNothing | index.ts:261-263 | a frontfill pass over a quiet address writes nothing |
| Orchestrator.AsWrittenPlanFailsAfterBackfillWrite | index.ts:345-349 | through the as-written reader, a plan throws on the missing `bottom` once any backfill write has been applied, whatever is written after it |
| Orchestrator.AsWrittenStopsAfterWritingPass | index.ts:341-403 | a pass that wrote the backfill checkpoint leaves a table on which the next plan through the as-written reader throws |
| Watchdog.SnapshotOf | index.ts:287-297 | a decoded snapshot always differs from the initial all-`undefined` baseline |
| Watchdog.Tick | index.ts:301-316 | the process exits exactly when all six fields equal the baseline; otherwise the fresh values become the baseline |
| Watchdog.CheckWith | index.ts:299-316 | a tick throws exactly when a read throws; it ends the process exactly when both records decode to the ones the baseline was taken from; otherwise the decoded pair, which differs from the baseline, becomes the baseline |
| Watchdog.Check | index.ts:299-316 | the same through the reader that takes the lower bound from `bottom_sig` |
| Watchdog.SnapshotInjective | index.ts:301-307 | two snapshots agree exactly when both decoded records agree |
| Watchdog.FirstTickNeverExits | index.ts:287-297 | the first tick always continues |
| Watchdog.ExitIffUnchanged | index.ts:299-316 | the watchdog exits exactly when neither checkpoint reads back differently from the previous tick |
| Watchdog.IdleFrontfillTripsWatchdog | index.ts:299-316 | with a quiet address, a tick after a frontfill pass sees nothing changed and ends the process |
| Watchdog.AsWrittenTickFailsAfterBackfillWrite | index.ts:299-300 | through the as-written reader, a tick throws on the missing `bottom` once any backfill write has been applied |

## Left out

- RPC connections, retries inside `getSignaturesForAddressWithRetries`, `refreshConnection`, sleeping and backoff timing, logging, and `DEBUG_MODE`.
- Sending to SQS: a send is a `Publish` event, assumed to succeed.
- AWS I/O: puts are fire-and-forget in the source. This includes the backfill progress write inside the page loop (index.ts:217-222), which the walk does not await before fetching the next page. The model applies them immediately in issue order; lost writes and reordering between items are not modelled.
- `main().catch` and process exit: a thrown read or RPC failure is a `Failure` result. In the source the main loop stops there and `main().catch` only logs; the timers keep the process alive until the watchdog ends it.
- Integer widths: blockTime and slot are unbounded integers. A `null` blockTime from the RPC is not modelled.
- The null-signature check at index.ts:267-269 has no effect on state and is not modelled.
- Checkpoint readers: an attribute stored under the wrong type is read as a fault. The writers never produce such an item; JavaScript would yield `undefined` or `NaN` instead.
- TieDedup: keys that collide with `"blockTime"`, `"slot"` or `Object.prototype` names are not modelled. The source keeps its tie set in a plain object keyed by signature.
- TieDedup.SpliceOut: its own contract bounds only the length; what it removes is stated by `SpliceOutRemoves`.
- Walker.Walk: is bounded by `fuel` iterations; a run that exhausts the fuel reports `finished == false`, so an unbounded walk is not modelled.
- Walker.Walk: a `Failure` carries only the error. The queue sends and checkpoint writes issued before the failing fetch or read (earlier pages, the completion mark before the frontfill read of index.ts:247) happened in the source but are not part of the outcome, so the model says nothing about the table after a failed call.
- Walker.Finish: likewise, when the frontfill read at index.ts:247-249 throws, the completion mark written just before it is not part of the `Failure`.
- Orchestrator.RunPass: models one pass; the endless loop is a sequence of passes. A pass whose walk fails carries no effects, as for `Walker.Walk`.
- Orchestrator.RunPass: plans through the corrected reader. Through the reader as written, every pass after the first backfill write throws; `Orchestrator.AsWrittenStopsAfterWritingPass` states that, and nothing after it is modelled for the as-written reader.
- Orchestrator.Plan: reads the backfill checkpoint through the corrected reader; `Orchestrator.PlanWith` takes the attribute as a parameter, and with `bottom` it throws after any backfill write (`Orchestrator.AsWrittenPlanFailsAfterBackfillWrite`). The self-heal re-read at index.ts:370 is taken to return what the first read returned, since nothing is written in between.
- Watchdog.Check: reads through the corrected reader; `Watchdog.CheckWith` with `bottom` throws after any backfill write (`Watchdog.AsWrittenTickFailsAfterBackfillWrite`). Each tick is modelled on its own; the interval timer is not. A throwing read is a `Failure`; that the rejection inside the timer callback is unhandled and ends the process is not modelled.
- utils/types.ts beyond the signature cursor is not part of this model.

## Findings

| source | as written | input that shows it | evidently intended | confidence | as-written member | corrected member |
|---|---|---|---|---|---|---|
| utils/dynamodb.ts:54 | the backfill reader takes the lower bound from `r.Item.bottom.S`, but the writer stores it as `bottom_sig` (utils/dynamodb.ts:23) | any table in which the backfill checkpoint has been written once, for example after a reset | read `r.Item.bottom_sig.S` | not executed; follows from the attribute names | Checkpoint.BackfillReadFaultsOnWrittenItem | Checkpoint.BackfillRoundTrip |

Consequences of the as-written reader:

- `main` reads the backfill checkpoint first in every pass, so every pass after the first backfill write throws (`Orchestrator.AsWrittenPlanFailsAfterBackfillWrite`).
- So does every watchdog tick (`Watchdog.AsWrittenTickFailsAfterBackfillWrite`).

`Orchestrator.Plan`, `Orchestrator.RunPass` and `Watchdog.Check` use the corrected reader `Checkpoint.ReadBackfillFixed`.

=== FILE: base.dfy ===
/** Small shared vocabulary: optional values (JavaScript's `undefined`), results that may
    carry an error (a thrown exception), sequence reversal and removal by index set. */
module Base {

  /** `None` stands for JavaScript's `undefined`. */
  datatype Option<+T> = None | Some(value: T)

  /** `Failure` stands for an exception thrown and propagated to the caller. */
  datatype Result<+T, +E> = Success(value: T) | Failure(error: E) {
    predicate IsFailure() {
      Failure?
    }

    function PropagateFailure<U>(): Result<U, E>
      requires Failure?
    {
      Failure(error)
    }

    function Extract(): T
      requires Success?
    {
      value
    }
  }

  /** In-place `Array.prototype.reverse`, as a value. */
  function Reverse<T>(s: seq<T>): (r: seq<T>)
    ensures |r| == |s|
    ensures forall i :: 0 <= i < |s| ==> r[i] == s[|s| - 1 - i]
  {
    if s == [] then [] else Reverse(s[1..]) + [s[0]]
  }

  /** The elements of `s` from position `i` on whose positions are not in `drop`,
      in their original order. */
  function WithoutFrom<T>(s: seq<T>, drop: set<int>, i: nat): (r: seq<T>)
    decreases |s| - i
  {
    if i >= |s| then []
    else
      var rest := WithoutFrom(s, drop, i + 1);
      if i in drop then rest else [s[i]] + rest
  }

  /** The order-preserving subsequence of `s` that leaves out the positions in `drop`. */
  function Without<T>(s: seq<T>, drop: set<int>): seq<T>
  {
    WithoutFrom(s, drop, 0)
  }

  /** Positions below the first dropped one are kept as they are. */
  lemma {:induction false} WithoutFromPrefix<T>(s: seq<T>, drop: set<int>, i: nat, p: nat)
    requires i <= p <= |s|
    requires forall d :: d in drop ==> !(i <= d < p)
    ensures WithoutFrom(s, drop, i) == s[i..p] + WithoutFrom(s, drop, p)
    decreases p - i
  {
    if i < p {
      assert i !in drop;
      WithoutFromPrefix(s, drop, i + 1, p);
      calc {
        WithoutFrom(s, drop, i);
        [s[i]] + WithoutFrom(s, drop, i + 1);
        [s[i]] + (s[i + 1..p] + WithoutFrom(s, drop, p));
        { assert s[i..p] == [s[i]] + s[i + 1..p]; }
        s[i..p] + WithoutFrom(s, drop, p);
      }
    }
  }

  /** Only the drop positions from `i` on matter. */
  lemma {:induction false} WithoutFromAgree<T>(s: seq<T>, d1: set<int>, d2: set<int>, i: nat)
    requires forall j :: i <= j < |s| ==> (j in d1 <==> j in d2)
    ensures WithoutFrom(s, d1, i) == WithoutFrom(s, d2, i)
    decreases |s| - i
  {
    if i < |s| {
      WithoutFromAgree(s, d1, d2, i + 1);
    }
  }

  /** Dropping no position of `s` leaves `s` unchanged. */
  lemma {:induction false} WithoutKeepsOthers<T>(s: seq<T>, drop: set<int>)
    requires forall d :: d in drop ==> !(0 <= d < |s|)
    ensures Without(s, drop) == s
  {
    WithoutFromPrefix(s, drop, 0, |s|);
    assert s[0..|s|] == s;
  }
}

=== FILE: checkpoint.dfy ===
/** The two checkpoint records and their DynamoDB encoding (utils/dynamodb.ts).
    The table is a map from item id to item; an item is a map from attribute name to a typed
    attribute value. `putItem` replaces the whole item under its id; `getItem` either finds the
    item or finds nothing. Optional fields are written with the sentinels `""` and `0` and read
    back as absent. */
module Checkpoint {
  import opened Base

  /** A DynamoDB attribute value: `{S: ...}`, `{N: ...}` (read as an integer) or `{BOOL: ...}`. */
  datatype Attr = S(s: string) | N(n: int) | Bool(b: bool)

  type Item = map<string, Attr>

  type Table = map<string, Item>

  /** Where a backward walk stopped, its lower bound, and whether backfill has finished. */
  datatype BackfillCheckpoint = BackfillCheckpoint(incompleteTop: Option<string>, bottomSig: Option<string>, complete: bool)

  /** The newest signature processed and its (blockTime, slot) ordering key. */
  datatype FrontfillCheckpoint = FrontfillCheckpoint(oldTop: Option<string>, oldTopBlockTime: Option<int>, oldTopSlot: Option<int>)

  /** What makes a read throw: dereferencing an attribute that the item does not have, or
      (see README) one stored under another type. */
  datatype ReadError = MissingAttribute(name: string) | WrongAttributeType(name: string)

  const NoBackfill: BackfillCheckpoint := BackfillCheckpoint(None, None, false)
  const NoFrontfill: FrontfillCheckpoint := FrontfillCheckpoint(None, None, None)

  const IdAttr: string := "id"
  const IncompleteTopAttr: string := "incomplete_top"
  const BottomSigAttr: string := "bottom_sig"
  const CompleteAttr: string := "backfill_complete"
  const OldTopAttr: string := "old_top"
  const OldTopBlockTimeAttr: string := "old_top_block_time"
  const OldTopSlotAttr: string := "old_top_slot"

  /** The attribute name the backfill reader dereferences for the lower bound. */
  const ReaderBottomAttr: string := "bottom"

  function BackfillId(network: string): string {
    network + "-backfill-checkpoint"
  }

  function FrontfillId(network: string): string {
    network + "-frontfill-checkpoint"
  }

  /** The two records of one network never share an item. */
  lemma IdsDistinct(network: string)
    ensures BackfillId(network) != FrontfillId(network)
  {
    assert BackfillId(network)[|network| + 1] == 'b';
    assert FrontfillId(network)[|network| + 1] == 'f';
  }

  // ----- sentinels -----

  function OrEmpty(o: Option<string>): string {
    if o.None? then "" else o.value
  }

  function OrZero(o: Option<int>): int {
    if o.None? then 0 else o.value
  }

  function EmptyAsAbsent(s: string): Option<string> {
    if s == "" then None else Some(s)
  }

  function ZeroAsAbsent(n: int): Option<int> {
    if n == 0 then None else Some(n)
  }

  /** What a write followed by a read can give back: a present `""` comes back absent. */
  function NormalizeBackfill(r: BackfillCheckpoint): BackfillCheckpoint {
    BackfillCheckpoint(EmptyAsAbsent(OrEmpty(r.incompleteTop)), EmptyAsAbsent(OrEmpty(r.bottomSig)), r.complete)
  }

  /** What a write followed by a read can give back: a present `""` or `0` comes back absent. */
  function NormalizeFrontfill(r: FrontfillCheckpoint): FrontfillCheckpoint {
    FrontfillCheckpoint(EmptyAsAbsent(OrEmpty(r.oldTop)), ZeroAsAbsent(OrZero(r.oldTopBlockTime)), ZeroAsAbsent(OrZero(r.oldTopSlot)))
  }

  /** A record free of the values the sentinels collide with. */
  predicate BackfillFree(r: BackfillCheckpoint) {
    r.incompleteTop != Some("") && r.bottomSig != Some("")
  }

  predicate FrontfillFree(r: FrontfillCheckpoint) {
    r.oldTop != Some("") && r.oldTopBlockTime != Some(0) && r.oldTopSlot != Some(0)
  }

  // ----- encoding -----

  function EncodeBackfill(network: string, r: BackfillCheckpoint): Item {
    map[IdAttr := S(BackfillId(network)),
        IncompleteTopAttr := S(OrEmpty(r.incompleteTop)),
        BottomSigAttr := S(OrEmpty(r.bottomSig)),
        CompleteAttr := Bool(r.complete)]
  }

  function EncodeFrontfill(network: string, r: FrontfillCheckpoint): Item {
    map[IdAttr := S(FrontfillId(network)),
        OldTopAttr := S(OrEmpty(r.oldTop)),
        OldTopBlockTimeAttr := N(OrZero(r.oldTopBlockTime)),
        OldTopSlotAttr := N(OrZero(r.oldTopSlot))]
  }

  /** `writeBackfillCheckpoint`: a put of the whole backfill item. */
  function WriteBackfill(table: Table, network: string, r: BackfillCheckpoint): (t: Table)
    ensures t.Keys == table.Keys + {BackfillId(network)}
    ensures forall k :: k in table && k != BackfillId(network) ==> t[k] == table[k]
  {
    table[BackfillId(network) := EncodeBackfill(network, r)]
  }

  /** `writeFrontfillCheckpoint`: a put of the whole frontfill item. */
  function WriteFrontfill(table: Table, network: string, r: FrontfillCheckpoint): (t: Table)
    ensures t.Keys == table.Keys + {FrontfillId(network)}
    ensures forall k :: k in table && k != FrontfillId(network) ==> t[k] == table[k]
  {
    table[FrontfillId(network) := EncodeFrontfill(network, r)]
  }

  // ----- decoding -----

  /** `item.name.S`: throws when the attribute is missing. */
  function GetS(item: Item, name: string): Result<string, ReadError> {
    if name !in item then Failure(MissingAttribute(name))
    else if item[name].S? then Success(item[name].s)
    else Failure(WrongAttributeType(name))
  }

  /** `Number(item.name.N)`: throws when the attribute is missing. */
  function GetN(item: Item, name: string): Result<int, ReadError> {
    if name !in item then Failure(MissingAttribute(name))
    else if item[name].N? then Success(item[name].n)
    else Failure(WrongAttributeType(name))
  }

  /** `item.name.BOOL`: throws when the attribute is missing. */
  function GetBool(item: Item, name: string): Result<bool, ReadError> {
    if name !in item then Failure(MissingAttribute(name))
    else if item[name].Bool? then Success(item[name].b)
    else Failure(WrongAttributeType(name))
  }

  /** `readBackfillCheckpoint`, parameterised by the attribute name it takes the lower bound
      from; a missing item reads as "nothing done yet". */
  function ReadBackfillAs(table: Table, network: string, bottomAttr: string): (r: Result<BackfillCheckpoint, ReadError>)
    ensures BackfillId(network) !in table ==> r == Success(NoBackfill)
    ensures r.Success? ==> BackfillFree(r.value)
    ensures r.Failure? ==> BackfillId(network) in table
  {
    if BackfillId(network) !in table then Success(NoBackfill)
    else
      var item := table[BackfillId(network)];
      var top :- GetS(item, IncompleteTopAttr);
      var bottom :- GetS(item, bottomAttr);
      var complete :- GetBool(item, CompleteAttr);
      Success(BackfillCheckpoint(EmptyAsAbsent(top), EmptyAsAbsent(bottom), complete))
  }

  /** `readBackfillCheckpoint` as written: it takes the lower bound from `bottom`, an
      attribute the writer never stores. */
  function ReadBackfill(table: Table, network: string): (r: Result<BackfillCheckpoint, ReadError>)
    ensures BackfillId(network) !in table ==> r == Success(NoBackfill)
    ensures BackfillId(network) in table && ReaderBottomAttr !in table[BackfillId(network)] ==> r.Failure?
  {
    ReadBackfillAs(table, network, ReaderBottomAttr)
  }

  /** `readBackfillCheckpoint` reading the attribute the writer stores, `bottom_sig`. */
  function ReadBackfillFixed(table: Table, network: string): (r: Result<BackfillCheckpoint, ReadError>)
    ensures BackfillId(network) !in table ==> r == Success(NoBackfill)
    ensures r.Success? ==> BackfillFree(r.value)
  {
    ReadBackfillAs(table, network, BottomSigAttr)
  }

  /** `readFrontfillCheckpoint`; a missing item reads as all-absent. */
  function ReadFrontfill(table: Table, network: string): (r: Result<FrontfillCheckpoint, ReadError>)
    ensures FrontfillId(network) !in table ==> r == Success(NoFrontfill)
    ensures r.Success? ==> FrontfillFree(r.value)
    ensures r.Failure? ==> FrontfillId(network) in table
  {
    if FrontfillId(network) !in table then Success(NoFrontfill)
    else
      var item := table[FrontfillId(network)];
      var top :- GetS(item, OldTopAttr);
      var blockTime :- GetN(item, OldTopBlockTimeAttr);
      var slot :- GetN(item, OldTopSlotAttr);
      Success(FrontfillCheckpoint(EmptyAsAbsent(top), ZeroAsAbsent(blockTime), ZeroAsAbsent(slot)))
  }

  // ----- properties -----

  /** Every item the backfill writer produces makes the as-written reader throw. */
  lemma BackfillReadFaultsOnWrittenItem(table: Table, network: string, r: BackfillCheckpoint)
    ensures ReadBackfill(WriteBackfill(table, network, r), network) == Failure(MissingAttribute(ReaderBottomAttr))
  {
    var item := EncodeBackfill(network, r);
    assert ReaderBottomAttr !in item;
  }

  /** Backfill round trip through the corrected reader: `complete` is read back unchanged,
      the signatures come back unless they were the empty string. */
  lemma BackfillRoundTrip(table: Table, network: string, r: BackfillCheckpoint)
    ensures ReadBackfillFixed(WriteBackfill(table, network, r), network) == Success(NormalizeBackfill(r))
    ensures BackfillFree(r) ==> ReadBackfillFixed(WriteBackfill(table, network, r), network) == Success(r)
  {
  }

  /** Frontfill round trip: absent fields come back absent, present non-empty / non-zero
      fields come back exactly. */
  lemma FrontfillRoundTrip(table: Table, network: string, r: FrontfillCheckpoint)
    ensures ReadFrontfill(WriteFrontfill(table, network, r), network) == Success(NormalizeFrontfill(r))
    ensures FrontfillFree(r) ==> ReadFrontfill(WriteFrontfill(table, network, r), network) == Success(r)
  {
  }

  /** The sentinels collide: every record is stored exactly like its normal form, so two
      records are stored alike exactly when they normalise alike; in particular a present
      `""` / `0` is stored like an absent field. */
  lemma FrontfillSentinelCollision(network: string, r1: FrontfillCheckpoint, r2: FrontfillCheckpoint)
    ensures EncodeFrontfill(network, r1) == EncodeFrontfill(network, NormalizeFrontfill(r1))
    ensures EncodeFrontfill(network, r1) == EncodeFrontfill(network, r2) <==> NormalizeFrontfill(r1) == NormalizeFrontfill(r2)
    ensures EncodeFrontfill(network, FrontfillCheckpoint(Some(""), Some(0), Some(0))) == EncodeFrontfill(network, NoFrontfill)
    ensures FrontfillCheckpoint(Some(""), Some(0), Some(0)) != NoFrontfill
  {
    var e1, e2 := EncodeFrontfill(network, r1), EncodeFrontfill(network, r2);
    if e1 == e2 {
      assert e1[OldTopAttr] == e2[OldTopAttr];
      assert e1[OldTopBlockTimeAttr] == e2[OldTopBlockTimeAttr];
      assert e1[OldTopSlotAttr] == e2[OldTopSlotAttr];
    }
  }

  /** The same for the backfill item's signature fields. */
  lemma BackfillSentinelCollision(network: string, r1: BackfillCheckpoint, r2: BackfillCheckpoint)
    ensures EncodeBackfill(network, r1) == EncodeBackfill(network, NormalizeBackfill(r1))
    ensures EncodeBackfill(network, r1) == EncodeBackfill(network, r2) <==> NormalizeBackfill(r1) == NormalizeBackfill(r2)
  {
    var e1, e2 := EncodeBackfill(network, r1), EncodeBackfill(network, r2);
    if e1 == e2 {
      assert e1[IncompleteTopAttr] == e2[IncompleteTopAttr];
      assert e1[BottomSigAttr] == e2[BottomSigAttr];
      assert e1[CompleteAttr] == e2[CompleteAttr];
    }
  }

  /** Writing one record leaves what the other reader sees unchanged. */
  lemma WritesIndependent(table: Table, network: string, b: BackfillCheckpoint, f: FrontfillCheckpoint, bottomAttr: string)
    ensures ReadFrontfill(WriteBackfill(table, network, b), network) == ReadFrontfill(table, network)
    ensures ReadBackfillAs(WriteFrontfill(table, network, f), network, bottomAttr) == ReadBackfillAs(table, network, bottomAttr)
  {
    IdsDistinct(network);
  }
}

=== FILE: orchestrator.dfy ===
/** The indexing loop of `main` (index.ts:325-404): the optional reset of both checkpoints,
    then, pass after pass, read the checkpoints, pick backfill, frontfill or self-heal, and
    run it. Each pass is modelled on its own; the endless loop is a sequence of passes over
    the same table. */
module Orchestrator {
  import opened Base
  import opened Signatures
  import opened Checkpoint
  import opened TieDedup
  import opened Walker

  /** What a pass decides to do once it has read the checkpoints. */
  datatype Action =
    | WalkBackfill(args: WalkArgs)
    | WalkFrontfill(args: WalkArgs)
    | SelfHeal(backfill: BackfillCheckpoint)

  /** JavaScript falsiness of an optional string (`!old_top`). */
  predicate Falsy(o: Option<string>) {
    o.None? || o == Some("")
  }

  /** Frontfill mode: backfill is recorded complete, or frontfill-only mode forces it. */
  predicate FrontfillMode(b: BackfillCheckpoint, frontfillOnly: bool) {
    b.complete || frontfillOnly
  }

  /** index.ts:345-392: read the backfill checkpoint, taking the lower bound from the attribute
      `bottomAttr`; in frontfill mode also read the frontfill checkpoint and fall back to
      self-healing when it has no anchor. The re-read of index.ts:370 sees what the first read
      saw, since nothing is written in between. */
  function PlanWith(table: Table, network: string, frontfillOnly: bool, bottomAttr: string): (r: Result<Action, ReadError>)
    ensures ReadBackfillAs(table, network, bottomAttr).Failure? ==> r == Failure(ReadBackfillAs(table, network, bottomAttr).error)
    ensures r.Failure? ==> ReadBackfillAs(table, network, bottomAttr).Failure? || ReadFrontfill(table, network).Failure?
    ensures r.Success? ==>
      var b := ReadBackfillAs(table, network, bottomAttr).value;
      && ReadBackfillAs(table, network, bottomAttr).Success?
      && (r.value.WalkBackfill? <==> !FrontfillMode(b, frontfillOnly))
      && (r.value.WalkBackfill? ==> r.value.args == WalkArgs(network, b.incompleteTop, b.bottomSig, false, NoBoundary))
      && (r.value.SelfHeal? ==> r.value.backfill == b.(complete := false))
    ensures r.Success? && !r.value.WalkBackfill? ==>
      var f := ReadFrontfill(table, network);
      && f.Success?
      && (r.value.SelfHeal? <==> f.value.oldTop.None?)
      && (r.value.WalkFrontfill? ==>
            r.value.args == WalkArgs(network, None, f.value.oldTop, true, Boundary(f.value.oldTopBlockTime, f.value.oldTopSlot)))
  {
    var b :- ReadBackfillAs(table, network, bottomAttr);
    if FrontfillMode(b, frontfillOnly) then
      var f :- ReadFrontfill(table, network);
      if Falsy(f.oldTop) then Success(SelfHeal(BackfillCheckpoint(b.incompleteTop, b.bottomSig, false)))
      else Success(WalkFrontfill(WalkArgs(network, None, f.oldTop, true, Boundary(f.oldTopBlockTime, f.oldTopSlot))))
    else Success(WalkBackfill(WalkArgs(network, b.incompleteTop, b.bottomSig, b.complete, NoBoundary)))
  }

  /** The plan of a pass through the reader that takes the lower bound from `bottom_sig`, the
      attribute the writer stores. */
  function Plan(table: Table, network: string, frontfillOnly: bool): (r: Result<Action, ReadError>)
    ensures ReadBackfillFixed(table, network).Failure? ==> r.Failure?
    ensures r.Success? ==>
      var b := ReadBackfillFixed(table, network).value;
      && ReadBackfillFixed(table, network).Success?
      && (r.value.WalkBackfill? <==> !FrontfillMode(b, frontfillOnly))
      && (r.value.WalkBackfill? ==> r.value.args == WalkArgs(network, b.incompleteTop, b.bottomSig, false, NoBoundary))
      && (r.value.SelfHeal? ==> r.value.backfill == b.(complete := false))
    ensures r.Success? && !r.value.WalkBackfill? ==>
      var f := ReadFrontfill(table, network);
      && f.Success?
      && (r.value.SelfHeal? <==> f.value.oldTop.None?)
      && (r.value.WalkFrontfill? ==>
            r.value.args == WalkArgs(network, None, f.value.oldTop, true, Boundary(f.value.oldTopBlockTime, f.value.oldTopSlot)))
    ensures r.Failure? ==> ReadBackfillFixed(table, network).Failure? || ReadFrontfill(table, network).Failure?
  {
    PlanWith(table, network, frontfillOnly, BottomSigAttr)
  }

  /** What one pass leaves behind. */
  datatype PassOut = PassOut(action: Action, events: seq<Event>, table: Table, fetches: nat)

  /** One pass of the `while (true)` body: plan, then self-heal or walk. A read that throws
      is a `Failure`: the main loop stops there; `main().catch` only logs the error. */
  function RunPass(table: Table, network: string, frontfillOnly: bool, responses: seq<Response>, fuel: nat): (r: Result<PassOut, WalkError>)
    ensures Plan(table, network, frontfillOnly).Failure? ==> r.Failure? && r.error.CheckpointReadFailed?
    ensures r.Success? ==> Plan(table, network, frontfillOnly) == Success(r.value.action)
    ensures r.Success? ==> r.value.table == ApplyEvents(table, network, r.value.events)
    ensures r.Success? && r.value.action.SelfHeal? ==>
      && r.value.events == [PutBackfill(r.value.action.backfill)]
      && ReadBackfillFixed(r.value.table, network) == Success(r.value.action.backfill)
      && ReadFrontfill(r.value.table, network) == ReadFrontfill(table, network)
    ensures r.Success? && !r.value.action.SelfHeal? ==> r.value.fetches <= |responses|
    ensures r.Success? && !r.value.action.SelfHeal? ==>
      var w := Walk(r.value.action.args, Init(r.value.action.args), responses, table, fuel);
      && w.Success?
      && w.value.events == r.value.events && w.value.table == r.value.table && w.value.fetches == r.value.fetches
  {
    var p := Plan(table, network, frontfillOnly);
    if p.Failure? then Failure(CheckpointReadFailed(p.error))
    else
      match p.value
      case SelfHeal(b) =>
        var events := [PutBackfill(b)];
        BackfillRoundTrip(table, network, b);
        WritesIndependent(table, network, b, NoFrontfill, BottomSigAttr);
        Success(PassOut(p.value, events, ApplyEvents(table, network, events), 0))
      case WalkBackfill(args) =>
        var run :- Walk(args, Init(args), responses, table, fuel);
        Success(PassOut(p.value, run.events, run.table, run.fetches))
      case WalkFrontfill(args) =>
        var run :- Walk(args, Init(args), responses, table, fuel);
        Success(PassOut(p.value, run.events, run.table, run.fetches))
  }

  /** index.ts:325-339 (`RESET=true`): clear the frontfill checkpoint, then the backfill one. */
  function Reset(table: Table, network: string): (t: Table)
    ensures t.Keys == table.Keys + {BackfillId(network), FrontfillId(network)}
    ensures forall k :: k in table && k != BackfillId(network) && k != FrontfillId(network) ==> t[k] == table[k]
  {
    WriteBackfill(WriteFrontfill(table, network, NoFrontfill), network, NoBackfill)
  }

  // ----- properties -----

  /** A reset reads back as "nothing done yet" through the corrected reader, while the reader
      as written throws on it. */
  lemma ResetReadsBack(table: Table, network: string)
    ensures ReadBackfillFixed(Reset(table, network), network) == Success(NoBackfill)
    ensures ReadFrontfill(Reset(table, network), network) == Success(NoFrontfill)
    ensures ReadBackfill(Reset(table, network), network) == Failure(MissingAttribute(ReaderBottomAttr))
  {
    var t0 := WriteFrontfill(table, network, NoFrontfill);
    BackfillRoundTrip(t0, network, NoBackfill);
    FrontfillRoundTrip(table, network, NoFrontfill);
    WritesIndependent(t0, network, NoBackfill, NoFrontfill, BottomSigAttr);
    BackfillReadFaultsOnWrittenItem(t0, network, NoBackfill);
  }

  /** After a reset the next pass is a fresh backfill from the chain head, with the early
      frontfill write armed; in frontfill-only mode it self-heals instead. */
  lemma ResetStartsFreshBackfill(table: Table, network: string)
    ensures Plan(Reset(table, network), network, false) == Success(WalkBackfill(WalkArgs(network, None, None, false, NoBoundary)))
    ensures FreshBackfill(WalkArgs(network, None, None, false, NoBoundary))
    ensures Plan(Reset(table, network), network, true) == Success(SelfHeal(NoBackfill))
  {
    ResetReadsBack(table, network);
  }

  /** Self-heal: a pass that finds backfill complete but no frontfill anchor clears the
      completion flag, and the next pass resumes the backfill from the same cursors. */
  lemma {:induction false} SelfHealResumesBackfill(table: Table, network: string, responses: seq<Response>, fuel: nat)
    requires Plan(table, network, false).Success? && Plan(table, network, false).value.SelfHeal?
    ensures RunPass(table, network, false, responses, fuel).Success?
    ensures var b := Plan(table, network, false).value.backfill;
            var out := RunPass(table, network, false, responses, fuel).value;
            Plan(out.table, network, false) == Success(WalkBackfill(WalkArgs(network, b.incompleteTop, b.bottomSig, false, NoBoundary)))
  {
    var b := Plan(table, network, false).value.backfill;
    var out := RunPass(table, network, false, responses, fuel).value;
    assert ReadBackfillFixed(out.table, network) == Success(b);
  }

  /** In frontfill-only mode without an anchor the process makes no progress: every pass
      self-heals with the same record, and from the second pass on the table no longer
      changes. */
  lemma {:induction false} FrontfillOnlyWithoutAnchorStalls(table: Table, network: string, responses: seq<Response>, fuel: nat)
    requires Plan(table, network, true).Success? && Plan(table, network, true).value.SelfHeal?
    ensures RunPass(table, network, true, responses, fuel).Success?
    ensures var t1 := RunPass(table, network, true, responses, fuel).value.table;
            && Plan(t1, network, true) == Plan(table, network, true)
            && RunPass(t1, network, true, responses, fuel).Success?
            && RunPass(t1, network, true, responses, fuel).value.table == t1
  {
    var b := Plan(table, network, true).value.backfill;
    var out := RunPass(table, network, true, responses, fuel).value;
    var t1 := out.table;
    assert out.action == SelfHeal(b) && out.events == [PutBackfill(b)];
    assert ApplyEvents(table, network, out.events) == ApplyEvents(WriteBackfill(table, network, b), network, []);
    assert ApplyEvents(WriteBackfill(table, network, b), network, []) == WriteBackfill(table, network, b);
    assert t1 == WriteBackfill(table, network, b);
    assert ReadBackfillFixed(t1, network) == Success(b);
    assert Plan(t1, network, true) == Success(SelfHeal(b));
    assert WriteBackfill(t1, network, b) == t1;
  }

  /** Backfill hands over to frontfill: once a backfill walk has processed a page and reached
      the end of history, the next pass (outside frontfill-only mode) is a frontfill walk with
      an anchor. */
  lemma BackfillHandsOverToFrontfill(args: WalkArgs, responses: seq<Response>, table: Table, fuel: nat)
    requires !args.backfillComplete
    ensures var r := Walk(args, Init(args), responses, table, fuel);
            r.Success? && r.value.finished && !r.value.state.first && OrEmpty(r.value.state.newTop.value.signature) != "" ==>
              var next := Plan(r.value.table, args.network, false);
              && next.Success?
              && next.value.WalkFrontfill?
              && next.value.args.until.Some?
              && next.value.args.backfillComplete
  {
    var r := Walk(args, Init(args), responses, table, fuel);
    if r.Success? && r.value.finished && !r.value.state.first {
      assert ReadBackfillFixed(r.value.table, args.network) == Success(BackfillCheckpoint(None, None, true));
      assert AnchorSet(r.value.table, args.network, r.value.state.newTop.value);
    }
  }

  /** A frontfill pass over a quiet address (five empty fetches) writes nothing at all. */
  lemma IdleFrontfillPassWritesNothing(table: Table, network: string, frontfillOnly: bool, responses: seq<Response>, fuel: nat)
    requires Plan(table, network, frontfillOnly).Success? && Plan(table, network, frontfillOnly).value.WalkFrontfill?
    requires fuel > 0 && |responses| >= MaxFetches
    requires forall k :: 0 <= k < MaxFetches ==> responses[k] == []
    ensures RunPass(table, network, frontfillOnly, responses, fuel).Success?
    ensures RunPass(table, network, frontfillOnly, responses, fuel).value.events == []
    ensures RunPass(table, network, frontfillOnly, responses, fuel).value.table == table
  {
    var args := Plan(table, network, frontfillOnly).value.args;
    var st := Init(args);
    FetchAllEmpty(responses);
    var step := Step(args, st, responses, table);
    assert step.Success? && step.value.fetches == MaxFetches;
    assert Reverse(responses[MaxFetches - 1]) == [];
    assert step.value.done && step.value.events == [];
  }

  /** A resumed backfill pass never disturbs an anchored frontfill checkpoint: only a fresh
      backfill writes the frontier early, and the completing write only seeds a missing anchor. */
  lemma ResumedBackfillKeepsAnchor(table: Table, network: string, responses: seq<Response>, fuel: nat)
    ensures var p := Plan(table, network, false);
            var r := RunPass(table, network, false, responses, fuel);
            p.Success? && p.value.WalkBackfill? && !FreshBackfill(p.value.args) && HasAnchor(table, network) && r.Success? ==>
              && CountFrontfillWrites(r.value.events) == 0
              && ReadFrontfill(r.value.table, network) == ReadFrontfill(table, network)
  {
    var p := Plan(table, network, false);
    if p.Success? && p.value.WalkBackfill? {
      var args := p.value.args;
      BackfillWalkKeepsAnchor(args, Init(args), responses, table, fuel);
    }
  }

  /** With the backfill reader as written (lower bound under `bottom`), the first backfill write
      is fatal: after it, whatever else is written, every plan fails on the missing attribute. */
  lemma AsWrittenPlanFailsAfterBackfillWrite(table: Table, network: string, events: seq<Event>, later: seq<Event>, frontfillOnly: bool)
    ensures (exists e :: e in events && e.PutBackfill?) ==>
      PlanWith(ApplyEvents(ApplyEvents(table, network, events), network, later), network, frontfillOnly, ReaderBottomAttr)
        == Failure(MissingAttribute(ReaderBottomAttr))
  {
    var t1 := ApplyEvents(table, network, events);
    var t2 := ApplyEvents(t1, network, later);
    if exists e :: e in events && e.PutBackfill? {
      BackfillWriteHidesBottom(table, network, events);
      BackfillWriteHidesBottom(t1, network, later);
    }
  }

  /** Every pass that writes the backfill checkpoint (a self-heal, or a backfill walk that
      publishes a page) leaves a table on which the as-written plan fails. */
  lemma AsWrittenStopsAfterWritingPass(table: Table, network: string, frontfillOnly: bool, responses: seq<Response>, fuel: nat, nextMode: bool)
    ensures var r := RunPass(table, network, frontfillOnly, responses, fuel);
            r.Success? && (exists e :: e in r.value.events && e.PutBackfill?) ==>
              PlanWith(r.value.table, network, nextMode, ReaderBottomAttr) == Failure(MissingAttribute(ReaderBottomAttr))
  {
    var r := RunPass(table, network, frontfillOnly, responses, fuel);
    if r.Success? {
      AsWrittenPlanFailsAfterBackfillWrite(table, network, r.value.events, [], nextMode);
    }
  }

  /** A backfill pass whose first fetch round comes back empty writes nothing: the walk ends
      on its first iteration, where index.ts:261-263 skips every checkpoint write, so the next
      pass plans the same backfill again. A backfill interrupted after its last progress write
      and before its completion mark therefore never completes. */
  lemma BackfillAtEndRepeats(table: Table, network: string, responses: seq<Response>, fuel: nat)
    requires Plan(table, network, false).Success? && Plan(table, network, false).value.WalkBackfill?
    requires fuel > 0 && |responses| >= MaxFetches
    requires forall k :: 0 <= k < MaxFetches ==> responses[k] == []
    ensures RunPass(table, network, false, responses, fuel).Success?
    ensures RunPass(table, network, false, responses, fuel).value.events == []
    ensures RunPass(table, network, false, responses, fuel).value.table == table
    ensures Plan(RunPass(table, network, false, responses, fuel).value.table, network, false) == Plan(table, network, false)
  {
    var args := Plan(table, network, false).value.args;
    var st := Init(args);
    FetchAllEmpty(responses);
    var step := Step(args, st, responses, table);
    assert step.Success? && step.value.fetches == MaxFetches;
    assert Reverse(responses[MaxFetches - 1]) == [];
    assert step.value.done && step.value.events == [];
  }
}

=== FILE: signatures.dfy ===
/** Signature records as the RPC returns them, and the all-optional cursor shape
    (`ConfirmedSignatureInfoShort`, utils/types.ts:10-14) the walker keeps its bounds in. */
module Signatures {
  import opened Base

  /** A base58 transaction signature. */
  type Sig = string

  /** One entry of `getSignaturesForAddress`; `blockTime` in seconds. */
  datatype SigInfo = SigInfo(signature: Sig, blockTime: int, slot: int)

  /** A page bound; every field may be `undefined`. */
  datatype Cursor = Cursor(signature: Option<Sig>, blockTime: Option<int>, slot: Option<int>)

  const NoCursor: Cursor := Cursor(None, None, None)

  /** The cursor `{signature, blockTime, slot}` copied out of one record. */
  function CursorOf(s: SigInfo): (c: Cursor)
    ensures c.signature.Some? && c.blockTime.Some? && c.slot.Some?
  {
    Cursor(Some(s.signature), Some(s.blockTime), Some(s.slot))
  }

  /** `sigs.map((s) => s.signature)`. */
  function SignaturesOf(page: seq<SigInfo>): (r: seq<Sig>)
    ensures |r| == |page|
    ensures forall i :: 0 <= i < |page| ==> r[i] == page[i].signature
  {
    if page == [] then [] else [page[0].signature] + SignaturesOf(page[1..])
  }
}

=== FILE: tiededup.dfy ===
/** Boundary-tie deduplication of one frontfill page (index.ts:89-155).
    Pages are oldest-first. The walker keeps a tie set: the (blockTime, slot) pair it was last
    reset to and the signatures it has recorded so far in this call. When the oldest entry of the
    page matches the boundary anchor or the previous page's oldest entry, or the two oldest
    entries tie, the whole page is scanned; a matching entry is recorded the first time it is
    seen and dropped every later time. */
module TieDedup {
  import opened Base
  import opened Signatures

  /** The `simultaneousBottoms` object: its pair and the signatures recorded in it. */
  datatype TieSet = TieSet(blockTime: Option<int>, slot: Option<int>, members: set<Sig>)

  /** The tie set every walker call starts from (index.ts:58-60). */
  const FreshTieSet: TieSet := TieSet(None, None, {})

  /** The ordering key of the frontfill anchor (`old_top_block_time`, `old_top_slot`). */
  datatype Boundary = Boundary(blockTime: Option<int>, slot: Option<int>)

  const NoBoundary: Boundary := Boundary(None, None)

  /** The record's pair is `===` the anchor's pair. */
  predicate AtBoundary(s: SigInfo, b: Boundary) {
    Some(s.blockTime) == b.blockTime && Some(s.slot) == b.slot
  }

  /** The per-entry test of index.ts:125 (repeated at :129): the anchor pair, or the previous
      oldest entry's blockTime together with the CURRENT oldest entry's slot. */
  predicate Matches(s: SigInfo, b: Boundary, prevBottom: Cursor, tempBottom: SigInfo) {
    AtBoundary(s, b) || (Some(s.blockTime) == prevBottom.blockTime && s.slot == tempBottom.slot)
  }

  /** index.ts:103-109: the two oldest entries share their pair. */
  predicate OldestTwoTie(page: seq<SigInfo>) {
    |page| > 1 && page[0].blockTime == page[1].blockTime && page[0].slot == page[1].slot
  }

  /** The trigger of index.ts:112 for a non-empty page. */
  predicate BottomMatches(page: seq<SigInfo>, b: Boundary, prevBottom: Cursor)
    requires |page| > 0
  {
    AtBoundary(page[0], b)
    || (Some(page[0].blockTime) == prevBottom.blockTime && Some(page[0].slot) == prevBottom.slot)
    || OldestTwoTie(page)
  }

  /** index.ts:115-121: the tie set is replaced by an empty one for the oldest entry's pair only
      when BOTH components differ from the tie set's pair and BOTH differ from the anchor's. */
  function ResetIfMoved(tie: TieSet, tempBottom: SigInfo, b: Boundary): (r: TieSet)
    ensures r == tie || r == TieSet(Some(tempBottom.blockTime), Some(tempBottom.slot), {})
    ensures Some(tempBottom.blockTime) == tie.blockTime || Some(tempBottom.slot) == tie.slot ==> r == tie
    ensures Some(tempBottom.blockTime) == b.blockTime || Some(tempBottom.slot) == b.slot ==> r == tie
    ensures && Some(tempBottom.blockTime) != tie.blockTime && Some(tempBottom.slot) != tie.slot
            && Some(tempBottom.blockTime) != b.blockTime && Some(tempBottom.slot) != b.slot
            ==> r == TieSet(Some(tempBottom.blockTime), Some(tempBottom.slot), {})
  {
    if (Some(tempBottom.blockTime) != tie.blockTime && Some(tempBottom.slot) != tie.slot)
       && (Some(tempBottom.blockTime) != b.blockTime && Some(tempBottom.slot) != b.slot)
    then TieSet(Some(tempBottom.blockTime), Some(tempBottom.slot), {})
    else tie
  }

  /** Entry `k` is a repeat: its signature was recorded before the scan started or by a
      matching entry at a position in `lo..k`. */
  ghost predicate SeenBefore(page: seq<SigInfo>, lo: nat, k: int, members: set<Sig>, b: Boundary, prevBottom: Cursor, tempBottom: SigInfo)
    requires 0 <= k < |page|
  {
    page[k].signature in members
    || exists j :: lo <= j < k && Matches(page[j], b, prevBottom, tempBottom) && page[j].signature == page[k].signature
  }

  datatype ScanResult = ScanResult(marked: seq<int>, tie: TieSet)

  /** The loop of index.ts:123-137 from position `i`: a matching entry not yet recorded is
      added to the tie set, a matching entry already recorded has its index pushed. The
      `else break` of index.ts:132-134 cannot be reached, because under the enclosing test the
      `else if` condition is the negation of the `if`; so the whole page is scanned. */
  function Scan(page: seq<SigInfo>, i: nat, b: Boundary, prevBottom: Cursor, tempBottom: SigInfo, tie: TieSet): (r: ScanResult)
    requires i <= |page|
    ensures r.tie.blockTime == tie.blockTime && r.tie.slot == tie.slot
    ensures forall n :: 0 <= n < |r.marked| ==> i <= r.marked[n] < |page|
    ensures forall n, m :: 0 <= n < m < |r.marked| ==> r.marked[n] < r.marked[m]
    decreases |page| - i
  {
    if i == |page| then ScanResult([], tie)
    else
      var s := page[i];
      var matched := Matches(s, b, prevBottom, tempBottom);
      var tie' := if matched && s.signature !in tie.members then tie.(members := tie.members + {s.signature}) else tie;
      var rest := Scan(page, i + 1, b, prevBottom, tempBottom, tie');
      if matched && s.signature in tie.members then ScanResult([i] + rest.marked, rest.tie)
      else ScanResult(rest.marked, rest.tie)
  }

  lemma SeenShift(page: seq<SigInfo>, i: nat, k: int, members: set<Sig>, b: Boundary, prevBottom: Cursor, tempBottom: SigInfo)
    requires i < k < |page|
    ensures SeenBefore(page, i, k, members, b, prevBottom, tempBottom)
            <==> SeenBefore(page, i + 1, k,
                            if Matches(page[i], b, prevBottom, tempBottom) then members + {page[i].signature} else members,
                            b, prevBottom, tempBottom)
  {
    if Matches(page[i], b, prevBottom, tempBottom) && page[i].signature == page[k].signature {
      assert SeenBefore(page, i, k, members, b, prevBottom, tempBottom);
    }
  }

  /** The scan records every matching signature and nothing else. */
  lemma {:induction false} ScanRecords(page: seq<SigInfo>, i: nat, b: Boundary, prevBottom: Cursor, tempBottom: SigInfo, tie: TieSet)
    requires i <= |page|
    ensures Scan(page, i, b, prevBottom, tempBottom, tie).tie.members
            == tie.members + set j | i <= j < |page| && Matches(page[j], b, prevBottom, tempBottom) :: page[j].signature
    decreases |page| - i
  {
    if i < |page| {
      var s := page[i];
      var matched := Matches(s, b, prevBottom, tempBottom);
      var tie' := if matched && s.signature !in tie.members then tie.(members := tie.members + {s.signature}) else tie;
      ScanRecords(page, i + 1, b, prevBottom, tempBottom, tie');
      var later := set j | i + 1 <= j < |page| && Matches(page[j], b, prevBottom, tempBottom) :: page[j].signature;
      var all := set j | i <= j < |page| && Matches(page[j], b, prevBottom, tempBottom) :: page[j].signature;
      assert all == (if matched then {s.signature} else {}) + later;
    }
  }

  /** An index is pushed exactly when its entry matches and is a repeat. */
  lemma {:induction false} ScanMarksRepeats(page: seq<SigInfo>, i: nat, b: Boundary, prevBottom: Cursor, tempBottom: SigInfo, tie: TieSet)
    requires i <= |page|
    ensures forall k :: k in Scan(page, i, b, prevBottom, tempBottom, tie).marked <==>
      (i <= k < |page| && Matches(page[k], b, prevBottom, tempBottom) && SeenBefore(page, i, k, tie.members, b, prevBottom, tempBottom))
    decreases |page| - i
  {
    if i < |page| {
      var s := page[i];
      var matched := Matches(s, b, prevBottom, tempBottom);
      var tie' := if matched && s.signature !in tie.members then tie.(members := tie.members + {s.signature}) else tie;
      ScanMarksRepeats(page, i + 1, b, prevBottom, tempBottom, tie');
      assert matched ==> tie'.members == tie.members + {s.signature};
      forall k | i < k < |page|
        ensures SeenBefore(page, i, k, tie.members, b, prevBottom, tempBottom)
                <==> SeenBefore(page, i + 1, k, tie'.members, b, prevBottom, tempBottom)
      {
        SeenShift(page, i, k, tie.members, b, prevBottom, tempBottom);
      }
    }
  }

  /** The pushed indexes, reversed so that the largest comes first (index.ts:141). */
  function SpliceOrder(marked: seq<int>, size: int): (idxs: seq<int>)
    requires forall n :: 0 <= n < |marked| ==> 0 <= marked[n] < size
    requires forall n, m :: 0 <= n < m < |marked| ==> marked[n] < marked[m]
    ensures forall n :: 0 <= n < |idxs| ==> 0 <= idxs[n] < size
    ensures forall n, m :: 0 <= n < m < |idxs| ==> idxs[n] > idxs[m]
    ensures forall k :: k in idxs <==> k in marked
  {
    var idxs := Reverse(marked);
    assert forall n :: 0 <= n < |idxs| ==> idxs[n] == marked[|marked| - 1 - n];
    assert forall k :: k in marked ==> k in idxs by {
      forall k | k in marked ensures k in idxs {
        var m :| 0 <= m < |marked| && marked[m] == k;
        assert idxs[|marked| - 1 - m] == k;
      }
    }
    idxs
  }

  /** The splice loop of index.ts:144-150 over indexes given largest first: the entry at each
      index is removed when its signature is in the tie set (the "secondary check"). */
  function SpliceOut(s: seq<SigInfo>, idxs: seq<int>, members: set<Sig>): (r: seq<SigInfo>)
    requires forall n :: 0 <= n < |idxs| ==> 0 <= idxs[n]
    requires forall n, m :: 0 <= n < m < |idxs| ==> idxs[n] > idxs[m]
    requires |idxs| > 0 ==> idxs[0] < |s|
    ensures |s| - |idxs| <= |r| <= |s|
    decreases |idxs|
  {
    if idxs == [] then s
    else
      var k := idxs[0];
      var s' := if s[k].signature in members then s[..k] + s[k + 1..] else s;
      SpliceOut(s', idxs[1..], members)
  }

  /** Removing position `p` of `Without(page, drop)`, when every dropped position lies above
      `p`, removes `page[p]`. */
  lemma SpliceOne(page: seq<SigInfo>, drop: set<int>, p: nat)
    requires p < |page|
    requires forall d :: d in drop ==> d > p
    ensures p < |Without(page, drop)| && Without(page, drop)[p] == page[p]
    ensures Without(page, drop)[..p] + Without(page, drop)[p + 1..] == Without(page, drop + {p})
  {
    var cur := Without(page, drop);
    WithoutFromPrefix(page, drop, 0, p);
    var tail := WithoutFrom(page, drop, p + 1);
    assert cur == page[..p] + [page[p]] + tail;
    WithoutFromPrefix(page, drop + {p}, 0, p);
    WithoutFromAgree(page, drop + {p}, drop, p + 1);
    assert Without(page, drop + {p}) == page[..p] + tail;
    assert cur[..p] == page[..p];
    assert cur[p + 1..] == tail;
  }

  /** The positions the splice loop actually removes: those whose signature passes the
      secondary check. */
  function SplicedPositions(page: seq<SigInfo>, idxs: seq<int>, members: set<Sig>): (r: set<int>)
    requires forall n :: 0 <= n < |idxs| ==> 0 <= idxs[n] < |page|
    ensures forall k :: k in r <==> k in idxs && 0 <= k < |page| && page[k].signature in members
  {
    if idxs == [] then {}
    else (if page[idxs[0]].signature in members then {idxs[0]} else {}) + SplicedPositions(page, idxs[1..], members)
  }

  /** Splicing largest index first removes exactly the entries at the spliced positions
      of the original page, keeping all others in order. */
  lemma {:induction false} SpliceOutRemoves(page: seq<SigInfo>, drop: set<int>, idxs: seq<int>, members: set<Sig>)
    requires forall n :: 0 <= n < |idxs| ==> 0 <= idxs[n] < |page|
    requires forall n, m :: 0 <= n < m < |idxs| ==> idxs[n] > idxs[m]
    requires |idxs| > 0 ==> forall d :: d in drop ==> d > idxs[0]
    ensures |idxs| > 0 ==> idxs[0] < |Without(page, drop)|
    ensures SpliceOut(Without(page, drop), idxs, members) == Without(page, drop + SplicedPositions(page, idxs, members))
    decreases |idxs|
  {
    if idxs == [] {
      assert drop + {} == drop;
    } else {
      var p := idxs[0];
      SpliceOne(page, drop, p);
      var hit := page[p].signature in members;
      var drop' := if hit then drop + {p} else drop;
      SpliceOutRemoves(page, drop', idxs[1..], members);
      assert drop' + SplicedPositions(page, idxs[1..], members) == drop + SplicedPositions(page, idxs, members);
    }
  }

  /** The positions the deduplication removes, stated without the scan: on a non-empty
      frontfill page whose bottom triggers the check, every matching entry whose signature was
      already in the (possibly reset) tie set or at a matching position below it. */
  ghost function Dropped(page: seq<SigInfo>, complete: bool, tie: TieSet, prevBottom: Cursor, b: Boundary): set<int>
  {
    if |page| > 0 && complete && BottomMatches(page, b, prevBottom) then
      set k | 0 <= k < |page| && Matches(page[k], b, prevBottom, page[0])
                 && SeenBefore(page, 0, k, ResetIfMoved(tie, page[0], b).members, b, prevBottom, page[0])
    else {}
  }

  datatype DedupResult = DedupResult(page: seq<SigInfo>, tie: TieSet, prevBottom: Cursor)

  /** The marked positions are exactly `Dropped`, and each carries a recorded signature. */
  lemma MarkedIsDropped(page: seq<SigInfo>, tie: TieSet, prevBottom: Cursor, b: Boundary)
    requires |page| > 0 && BottomMatches(page, b, prevBottom)
    ensures var sc := Scan(page, 0, b, prevBottom, page[0], ResetIfMoved(tie, page[0], b));
            && (forall k :: k in sc.marked <==> k in Dropped(page, true, tie, prevBottom, b))
            && (forall k :: k in sc.marked ==> 0 <= k < |page| && page[k].signature in sc.tie.members)
  {
    var start := ResetIfMoved(tie, page[0], b);
    ScanRecords(page, 0, b, prevBottom, page[0], start);
    ScanMarksRepeats(page, 0, b, prevBottom, page[0], start);
  }

  /** Splicing the marked positions out of a page removes exactly `Dropped`. */
  lemma SpliceRemovesDropped(page: seq<SigInfo>, tie: TieSet, prevBottom: Cursor, b: Boundary)
    requires |page| > 0 && BottomMatches(page, b, prevBottom)
    ensures var sc := Scan(page, 0, b, prevBottom, page[0], ResetIfMoved(tie, page[0], b));
            SpliceOut(page, SpliceOrder(sc.marked, |page|), sc.tie.members) == Without(page, Dropped(page, true, tie, prevBottom, b))
  {
    var sc := Scan(page, 0, b, prevBottom, page[0], ResetIfMoved(tie, page[0], b));
    var idxs := SpliceOrder(sc.marked, |page|);
    var members := sc.tie.members;
    WithoutKeepsOthers(page, {});
    SpliceOutRemoves(page, {}, idxs, members);
    SplicedIsDropped(page, tie, prevBottom, b);
    assert {} + SplicedPositions(page, idxs, members) == Dropped(page, true, tie, prevBottom, b);
  }

  /** The positions the splice loop removes are exactly `Dropped`. */
  lemma SplicedIsDropped(page: seq<SigInfo>, tie: TieSet, prevBottom: Cursor, b: Boundary)
    requires |page| > 0 && BottomMatches(page, b, prevBottom)
    ensures var sc := Scan(page, 0, b, prevBottom, page[0], ResetIfMoved(tie, page[0], b));
            SplicedPositions(page, SpliceOrder(sc.marked, |page|), sc.tie.members) == Dropped(page, true, tie, prevBottom, b)
  {
    MarkedIsDropped(page, tie, prevBottom, b);
  }

  /** index.ts:89-155 on the reversed (oldest-first) page. */
  function Dedup(page: seq<SigInfo>, complete: bool, tie: TieSet, prevBottom: Cursor, b: Boundary): (r: DedupResult)
    ensures r.page == Without(page, Dropped(page, complete, tie, prevBottom, b))
    ensures |page| > 0 && complete ==> r.prevBottom == CursorOf(page[0])
    ensures !(|page| > 0 && complete) ==> r == DedupResult(page, tie, prevBottom)
  {
    WithoutKeepsOthers(page, {});
    if |page| > 0 && complete then
      var tempBottom := page[0];
      if BottomMatches(page, b, prevBottom) then
        var sc := Scan(page, 0, b, prevBottom, tempBottom, ResetIfMoved(tie, tempBottom, b));
        SpliceRemovesDropped(page, tie, prevBottom, b);
        DedupResult(SpliceOut(page, SpliceOrder(sc.marked, |page|), sc.tie.members), sc.tie, CursorOf(tempBottom))
      else
        DedupResult(page, tie, CursorOf(tempBottom))
    else
      DedupResult(page, tie, prevBottom)
  }

  /** The tie set a page leaves behind: when the trigger fires, the (possibly reset) tie set
      with every matching signature of the page recorded; otherwise the tie set unchanged. */
  lemma DedupTieSet(page: seq<SigInfo>, complete: bool, tie: TieSet, prevBottom: Cursor, b: Boundary)
    ensures var r := Dedup(page, complete, tie, prevBottom, b);
            |page| > 0 && complete && BottomMatches(page, b, prevBottom) ==>
              var start := ResetIfMoved(tie, page[0], b);
              r.tie == start.(members := start.members + set j | 0 <= j < |page| && Matches(page[j], b, prevBottom, page[0]) :: page[j].signature)
    ensures !(|page| > 0 && complete && BottomMatches(page, b, prevBottom)) ==> Dedup(page, complete, tie, prevBottom, b).tie == tie
  {
    if |page| > 0 && complete && BottomMatches(page, b, prevBottom) {
      ScanRecords(page, 0, b, prevBottom, page[0], ResetIfMoved(tie, page[0], b));
    }
  }

  /** The tie set starts empty on every call, so on a call's first page only a signature that
      occurs twice within that page can be dropped. */
  lemma FreshTieSetDropsOnlyRepeats(page: seq<SigInfo>, complete: bool, prevBottom: Cursor, b: Boundary)
    ensures forall k :: k in Dropped(page, complete, FreshTieSet, prevBottom, b) ==>
      0 <= k < |page| && exists j :: 0 <= j < k && page[j].signature == page[k].signature
  {
    if |page| > 0 {
      assert ResetIfMoved(FreshTieSet, page[0], b).members == {};
    }
  }

  predicate DistinctSignatures(page: seq<SigInfo>) {
    forall i, j :: 0 <= i < j < |page| ==> page[i].signature != page[j].signature
  }

  /** Consequently a first page without repeated signatures is published whole, even when its
      oldest entries tie with the anchor: a tie reordered across the boundary between two
      frontfill polls is published again by the second poll. */
  lemma FreshTieSetKeepsDistinctPage(page: seq<SigInfo>, complete: bool, prevBottom: Cursor, b: Boundary)
    requires DistinctSignatures(page)
    ensures Dedup(page, complete, FreshTieSet, prevBottom, b).page == page
  {
    FreshTieSetDropsOnlyRepeats(page, complete, prevBottom, b);
    WithoutKeepsOthers(page, Dropped(page, complete, FreshTieSet, prevBottom, b));
  }

  /** The loop of index.ts:123-137 branch for branch, `else break` included, accumulating the
      pushed indexes in `marked`. */
  function ScanAsWritten(page: seq<SigInfo>, i: nat, b: Boundary, prevBottom: Cursor, tempBottom: SigInfo, tie: TieSet, marked: seq<int>): ScanResult
    requires i <= |page|
    decreases |page| - i
  {
    if i == |page| then ScanResult(marked, tie)
    else
      var s := page[i];
      if Matches(s, b, prevBottom, tempBottom) then
        if s.signature !in tie.members then
          ScanAsWritten(page, i + 1, b, prevBottom, tempBottom, tie.(members := tie.members + {s.signature}), marked)
        else if Matches(s, b, prevBottom, tempBottom) && s.signature in tie.members then
          ScanAsWritten(page, i + 1, b, prevBottom, tempBottom, tie, marked + [i])
        else ScanResult(marked, tie)
      else ScanAsWritten(page, i + 1, b, prevBottom, tempBottom, tie, marked)
  }

  /** The `break` is never taken, so the loop as written computes `Scan` on every page from
      every position: a non-matching entry is skipped and the scan goes on. */
  lemma {:induction false} ScanAsWrittenIsScan(page: seq<SigInfo>, i: nat, b: Boundary, prevBottom: Cursor, tempBottom: SigInfo, tie: TieSet, marked: seq<int>)
    requires i <= |page|
    ensures var sc := Scan(page, i, b, prevBottom, tempBottom, tie);
            ScanAsWritten(page, i, b, prevBottom, tempBottom, tie, marked) == ScanResult(marked + sc.marked, sc.tie)
    decreases |page| - i
  {
    if i == |page| {
      assert marked + [] == marked;
    } else {
      var s := page[i];
      if Matches(s, b, prevBottom, tempBottom) {
        if s.signature !in tie.members {
          ScanAsWrittenIsScan(page, i + 1, b, prevBottom, tempBottom, tie.(members := tie.members + {s.signature}), marked);
        } else {
          var rest := Scan(page, i + 1, b, prevBottom, tempBottom, tie);
          ScanAsWrittenIsScan(page, i + 1, b, prevBottom, tempBottom, tie, marked + [i]);
          assert (marked + [i]) + rest.marked == marked + ([i] + rest.marked);
        }
      } else {
        ScanAsWrittenIsScan(page, i + 1, b, prevBottom, tempBottom, tie, marked);
      }
    }
  }

  /** The scan does not stop at the first non-matching entry: a repeat above it is dropped. */
  lemma ScanPassesMismatch()
    ensures var a := SigInfo("A", 10, 5);
            var page := [a, SigInfo("B", 20, 9), a];
            Dedup(page, true, FreshTieSet, NoCursor, Boundary(Some(10), Some(5))).page == [a, SigInfo("B", 20, 9)]
  {
    var a := SigInfo("A", 10, 5);
    var page := [a, SigInfo("B", 20, 9), a];
    var b := Boundary(Some(10), Some(5));
    var d := Dropped(page, true, FreshTieSet, NoCursor, b);
    assert SeenBefore(page, 0, 2, {}, b, NoCursor, a);
    assert 2 in d;
    assert 0 !in d;
    assert 1 !in d;
    assert d == {2};
    assert WithoutFrom(page, d, 2) == [];
    assert WithoutFrom(page, d, 1) == [SigInfo("B", 20, 9)];
    assert WithoutFrom(page, d, 0) == [a, SigInfo("B", 20, 9)];
  }

  /** With no anchor pair and no previous oldest entry, only a tie between the two oldest
      entries of the page sets off the deduplication. */
  lemma TriggerWithoutHistory(page: seq<SigInfo>)
    requires |page| > 0
    ensures BottomMatches(page, NoBoundary, NoCursor) <==> OldestTwoTie(page)
  {
  }

  /** Outside the anchor pair the per-entry test pairs the previous oldest entry's blockTime
      with the current oldest entry's slot: an entry carrying the previous oldest slot is not
      matched once the slot has moved, and an entry in the current oldest pair is matched
      exactly when the second has not moved. */
  lemma MatchMixesBottoms(s: SigInfo, b: Boundary, prevBottom: Cursor, tempBottom: SigInfo)
    requires !AtBoundary(s, b)
    ensures prevBottom.slot == Some(s.slot) && s.slot != tempBottom.slot ==> !Matches(s, b, prevBottom, tempBottom)
    ensures s.blockTime == tempBottom.blockTime && s.slot == tempBottom.slot ==>
      (Matches(s, b, prevBottom, tempBottom) <==> prevBottom.blockTime == Some(tempBottom.blockTime))
  {
  }

  /** The reset of index.ts:115 is component-wise: a bottom entry in a new slot of the same
      second as the tie set's pair (or in the same slot of another second) keeps the tie set and
      its members, whatever the anchor. */
  lemma ResetNeedsBothComponents(t: int, sl: int, members: set<Sig>, e: SigInfo, b: Boundary)
    requires e.blockTime == t || e.slot == sl
    ensures ResetIfMoved(TieSet(Some(t), Some(sl), members), e, b) == TieSet(Some(t), Some(sl), members)
  {
  }

  /** So a signature recorded under one slot is still dropped when it shows up again as the
      oldest entry of a later page in another slot of the same second. */
  lemma {:induction false} RecordedSurvivesSlotChange(t: int, sl: int, members: set<Sig>, page: seq<SigInfo>, prevBottom: Cursor, b: Boundary)
    requires |page| > 0 && page[0].blockTime == t && page[0].signature in members
    requires BottomMatches(page, b, prevBottom) && prevBottom.blockTime == Some(t)
    ensures 0 in Dropped(page, true, TieSet(Some(t), Some(sl), members), prevBottom, b)
  {
    ResetNeedsBothComponents(t, sl, members, page[0], b);
  }
}

=== FILE: walker.dfy ===
/** `indexSignaturesForAddress` (index.ts:26-273) as a step function over an explicit state.
    The RPC is an oracle: the sequence of responses (newest-first, as returned) that successive
    fetches receive; when it runs out, the RPC call has thrown, which aborts the walk. Queue
    sends and checkpoint puts are events, applied to the table in order as they are issued. */
module Walker {
  import opened Base
  import opened Signatures
  import opened Checkpoint
  import opened TieDedup

  /** One fetch plus at most four retries on an empty page (index.ts:70-85). */
  const MaxFetches: nat := 5

  /** One RPC response, newest-first. */
  type Response = seq<SigInfo>

  datatype WalkError = RpcFailed | CheckpointReadFailed(cause: ReadError)

  /** The caller's arguments: `before`, `until`, `backfill_complete` and the anchor pair. */
  datatype WalkArgs = WalkArgs(network: string, before: Option<Sig>, until: Option<Sig>, backfillComplete: bool, boundary: Boundary)

  /** The loop variables of the walk. `newTop` is `None` exactly while `firstFlag` is set. */
  datatype WalkState = WalkState(
    top: Cursor,
    bottom: Cursor,
    first: bool,
    newTop: Option<Cursor>,
    prevBottom: Cursor,
    tie: TieSet,
    earlyWrite: bool)

  /** Something the walk does to the outside world, in issue order. */
  datatype Event = Publish(batch: seq<Sig>) | PutBackfill(backfill: BackfillCheckpoint) | PutFrontfill(frontfill: FrontfillCheckpoint)

  /** The lower bound every fetch of the call uses (index.ts:40-44, 209-213). */
  function UntilCursor(args: WalkArgs): Cursor {
    Cursor(args.until, args.boundary.blockTime, args.boundary.slot)
  }

  /** Whether the early frontfill write is armed (index.ts:45-50). */
  predicate FreshBackfill(args: WalkArgs) {
    !args.backfillComplete && args.before.None? && args.until.None?
  }

  /** index.ts:34-60. */
  function Init(args: WalkArgs): (st: WalkState)
    ensures Valid(args, st)
    ensures st.first && st.tie == FreshTieSet && st.prevBottom == NoCursor
    ensures st.earlyWrite <==> FreshBackfill(args)
  {
    WalkState(Cursor(args.before, None, None), UntilCursor(args), true, None, NoCursor, FreshTieSet, FreshBackfill(args))
  }

  predicate Valid(args: WalkArgs, st: WalkState) {
    && st.bottom == UntilCursor(args)
    && (st.first <==> st.newTop.None?)
    && (st.earlyWrite ==> st.first)
    && (st.first ==> st.top.signature == args.before)
  }

  /** The `{before, until}` options of the next fetch. */
  function FetchBounds(st: WalkState): (Option<Sig>, Option<Sig>) {
    (st.top.signature, st.bottom.signature)
  }

  function FrontfillOf(c: Cursor): FrontfillCheckpoint {
    FrontfillCheckpoint(c.signature, c.blockTime, c.slot)
  }

  // ----- the table, as the events leave it -----

  function ApplyEvent(table: Table, network: string, e: Event): Table {
    match e
    case Publish(_) => table
    case PutBackfill(b) => WriteBackfill(table, network, b)
    case PutFrontfill(f) => WriteFrontfill(table, network, f)
  }

  function ApplyEvents(table: Table, network: string, events: seq<Event>): Table
    decreases |events|
  {
    if events == [] then table else ApplyEvents(ApplyEvent(table, network, events[0]), network, events[1..])
  }

  lemma {:induction false} ApplyEventsAppend(table: Table, network: string, a: seq<Event>, b: seq<Event>)
    ensures ApplyEvents(table, network, a + b) == ApplyEvents(ApplyEvents(table, network, a), network, b)
    decreases |a|
  {
    if a == [] {
      assert a + b == b;
    } else {
      var t1 := ApplyEvent(table, network, a[0]);
      assert (a + b)[0] == a[0] && (a + b)[1..] == a[1..] + b;
      ApplyEventsAppend(t1, network, a[1..], b);
      assert ApplyEvents(table, network, a + b) == ApplyEvents(t1, network, a[1..] + b);
    }
  }

  /** The batches sent to the queue, in order. */
  function Batches(events: seq<Event>): seq<seq<Sig>>
    decreases |events|
  {
    if events == [] then []
    else (if events[0].Publish? then [events[0].batch] else []) + Batches(events[1..])
  }

  function CountFrontfillWrites(events: seq<Event>): nat
    decreases |events|
  {
    if events == [] then 0
    else (if events[0].PutFrontfill? then 1 else 0) + CountFrontfillWrites(events[1..])
  }

  lemma {:induction false} CountAppend(a: seq<Event>, b: seq<Event>)
    ensures CountFrontfillWrites(a + b) == CountFrontfillWrites(a) + CountFrontfillWrites(b)
    ensures Batches(a + b) == Batches(a) + Batches(b)
    decreases |a|
  {
    if a == [] {
      assert a + b == b;
    } else {
      assert (a + b)[0] == a[0] && (a + b)[1..] == a[1..] + b;
      CountAppend(a[1..], b);
    }
  }

  /** The frontfill-write count and the batches of a sequence of at most one event. */
  lemma SingletonCounts(es: seq<Event>)
    requires |es| <= 1
    ensures CountFrontfillWrites(es) == (if es != [] && es[0].PutFrontfill? then 1 else 0)
    ensures Batches(es) == (if es != [] && es[0].Publish? then [es[0].batch] else [])
  {
    if es != [] {
      assert es[1..] == [];
    }
  }

  /** After a backfill call ends, the frontfill checkpoint reads back with an anchor (unless
      the frontier carries no signature or the empty one, which reads back as absent). */
  predicate AnchorSet(table: Table, network: string, newTop: Cursor) {
    ReadFrontfill(table, network).Success?
    && (ReadFrontfill(table, network).value.oldTop.Some? || OrEmpty(newTop.signature) == "")
  }

  /** The frontfill checkpoint reads back with an anchor. */
  predicate HasAnchor(table: Table, network: string) {
    ReadFrontfill(table, network).Success? && ReadFrontfill(table, network).value.oldTop.Some?
  }

  /** A backfill call that owes no early write and starts from a table whose frontfill
      checkpoint already has an anchor issues no frontfill write. */
  predicate SparesAnchor(args: WalkArgs, st: WalkState, table: Table, events: seq<Event>) {
    !args.backfillComplete && !st.earlyWrite && HasAnchor(table, args.network) ==> CountFrontfillWrites(events) == 0
  }

  // ----- fetching -----

  datatype Fetched = Fetched(page: seq<SigInfo>, fetches: nat)

  /** The retry loop after `c` fetches: it stops on a non-empty page or once `c` reaches 5. */
  function RetryFrom(responses: seq<Response>, c: nat): (r: Result<Fetched, WalkError>)
    requires 1 <= c <= MaxFetches && c <= |responses|
    ensures r.Success? ==> c <= r.value.fetches <= MaxFetches && r.value.fetches <= |responses|
    ensures r.Success? ==> r.value.page == Reverse(responses[r.value.fetches - 1])
    ensures r.Success? ==> r.value.page != [] || r.value.fetches == MaxFetches
    ensures r.Success? ==> forall k :: c - 1 <= k < r.value.fetches - 1 ==> responses[k] == []
    ensures r.Failure? <==> |responses| < MaxFetches && forall k :: c - 1 <= k < |responses| ==> responses[k] == []
    decreases MaxFetches - c
  {
    var sigs := Reverse(responses[c - 1]);
    if |sigs| >= 1 || c >= MaxFetches then Success(Fetched(sigs, c))
    else if c == |responses| then Failure(RpcFailed)
    else RetryFrom(responses, c + 1)
  }

  /** index.ts:62-85: fetch, reverse, and retry while the page is empty. */
  function FetchWithRetries(responses: seq<Response>): (r: Result<Fetched, WalkError>)
    ensures r.Success? ==> 1 <= r.value.fetches <= MaxFetches && r.value.fetches <= |responses|
    ensures r.Success? ==> r.value.page == Reverse(responses[r.value.fetches - 1])
    ensures r.Success? ==> r.value.page != [] || r.value.fetches == MaxFetches
    ensures r.Success? ==> forall k :: 0 <= k < r.value.fetches - 1 ==> responses[k] == []
    ensures r.Failure? <==> |responses| < MaxFetches && forall k :: 0 <= k < |responses| ==> responses[k] == []
  {
    if responses == [] then Failure(RpcFailed) else RetryFrom(responses, 1)
  }

  /** The first non-empty response among the first five is the one the walk uses. */
  lemma FetchTakesFirstNonEmpty(responses: seq<Response>, k: nat)
    requires k < MaxFetches && k < |responses| && responses[k] != []
    requires forall j :: 0 <= j < k ==> responses[j] == []
    ensures FetchWithRetries(responses) == Success(Fetched(Reverse(responses[k]), k + 1))
  {
  }

  /** Five empty responses in a row give up on the page: the walk sees an empty page. */
  lemma FetchAllEmpty(responses: seq<Response>)
    requires MaxFetches <= |responses|
    requires forall k :: 0 <= k < MaxFetches ==> responses[k] == []
    ensures FetchWithRetries(responses) == Success(Fetched([], MaxFetches))
  {
    RetryAllEmpty(responses, 1);
  }

  lemma {:induction false} RetryAllEmpty(responses: seq<Response>, c: nat)
    requires 1 <= c <= MaxFetches <= |responses|
    requires forall k :: 0 <= k < MaxFetches ==> responses[k] == []
    ensures RetryFrom(responses, c) == Success(Fetched([], MaxFetches))
    decreases MaxFetches - c
  {
    assert Reverse(responses[c - 1]) == [];
    if c < MaxFetches {
      RetryAllEmpty(responses, c + 1);
    }
  }

  // ----- one iteration of the do-while loop -----

  datatype StepOut = StepOut(next: WalkState, fetches: nat, events: seq<Event>, table: Table, done: bool)

  /** index.ts:159-223 for a non-empty page. */
  function Advance(args: WalkArgs, st: WalkState, page: seq<SigInfo>, fetches: nat, table: Table): (r: StepOut)
    requires Valid(args, st) && |page| > 0
    ensures Valid(args, r.next) && !r.done && r.fetches == fetches
    ensures r.next.top == CursorOf(page[0]) && FetchBounds(r.next) == (Some(page[0].signature), args.until)
    ensures r.next.newTop == if st.first then Some(CursorOf(page[|page| - 1])) else st.newTop
    ensures !r.next.earlyWrite
    ensures Batches(r.events) == [SignaturesOf(page)]
    ensures CountFrontfillWrites(r.events) == if st.earlyWrite then 1 else 0
    ensures forall e :: e in r.events && e.PutFrontfill? ==> e.frontfill == FrontfillOf(r.next.newTop.value)
    ensures !args.backfillComplete ==> r.events[|r.events| - 1] == PutBackfill(BackfillCheckpoint(Some(page[0].signature), None, false))
    ensures args.backfillComplete ==> forall e :: e in r.events ==> !e.PutBackfill?
    ensures r.table == ApplyEvents(table, args.network, r.events)
    ensures r.next.prevBottom == st.prevBottom && r.next.tie == st.tie
  {
    var pageTop := CursorOf(page[|page| - 1]);
    var pageBottom := CursorOf(page[0]);
    var newTop := if st.first then pageTop else st.newTop.value;
    var early := if st.earlyWrite then [PutFrontfill(FrontfillOf(newTop))] else [];
    var progress := if !args.backfillComplete then [PutBackfill(BackfillCheckpoint(pageBottom.signature, None, false))] else [];
    var events := early + [Publish(SignaturesOf(page))] + progress;
    SingletonCounts([Publish(SignaturesOf(page))]);
    SingletonCounts(early);
    SingletonCounts(progress);
    CountAppend(early, [Publish(SignaturesOf(page))]);
    CountAppend(early + [Publish(SignaturesOf(page))], progress);
    var next := st.(top := pageBottom, bottom := UntilCursor(args), first := false, newTop := Some(newTop), earlyWrite := false);
    StepOut(next, fetches, events, ApplyEvents(table, args.network, events), false)
  }

  /** index.ts:225-264: the page is empty. */
  function Finish(args: WalkArgs, st: WalkState, fetches: nat, table: Table): (r: Result<StepOut, WalkError>)
    requires Valid(args, st)
    ensures r.Success? ==> r.value.done && r.value.next == st && r.value.fetches == fetches
    ensures r.Success? ==> Batches(r.value.events) == []
    ensures r.Success? ==> r.value.table == ApplyEvents(table, args.network, r.value.events)
    ensures r.Success? && !st.first ==> forall e :: e in r.value.events && e.PutFrontfill? ==> e.frontfill == FrontfillOf(st.newTop.value)
    ensures r.Success? ==> CountFrontfillWrites(r.value.events) <= 1
    ensures st.first ==> r == Success(StepOut(st, fetches, [], table, true))
    ensures !st.first && args.backfillComplete ==> r == Success(StepOut(st, fetches, [PutFrontfill(FrontfillOf(st.newTop.value))], WriteFrontfill(table, args.network, FrontfillOf(st.newTop.value)), true))
    ensures !st.first && !args.backfillComplete && r.Success? ==> |r.value.events| > 0 && r.value.events[0] == PutBackfill(BackfillCheckpoint(None, None, true))
    ensures r.Failure? ==> !st.first && !args.backfillComplete && ReadFrontfill(table, args.network).Failure?
    ensures r.Success? && !st.first && !args.backfillComplete ==> AnchorSet(r.value.table, args.network, st.newTop.value)
    ensures r.Success? && !st.first && !args.backfillComplete ==> ReadBackfillFixed(r.value.table, args.network) == Success(BackfillCheckpoint(None, None, true))
  {
    if st.first then Success(StepOut(st, fetches, [], table, true))
    else
      var newTop := FrontfillOf(st.newTop.value);
      if args.backfillComplete then
        var events := [PutFrontfill(newTop)];
        SingletonCounts(events);
        Success(StepOut(st, fetches, events, ApplyEvents(table, args.network, events), true))
      else
        var completed := PutBackfill(BackfillCheckpoint(None, None, true));
        var afterMark := ApplyEvent(table, args.network, completed);
        WritesIndependent(table, args.network, BackfillCheckpoint(None, None, true), newTop, BottomSigAttr);
        var stored := ReadFrontfill(afterMark, args.network);
        if stored.Failure? then Failure(CheckpointReadFailed(stored.error))
        else
          var seed := if stored.value.oldTop.None? then [PutFrontfill(newTop)] else [];
          var events := [completed] + seed;
          var after := if seed == [] then afterMark else WriteFrontfill(afterMark, args.network, newTop);
          SingletonCounts([completed]);
          SingletonCounts(seed);
          CountAppend([completed], seed);
          ApplyEventsAppend(table, args.network, [completed], seed);
          assert ApplyEvents(table, args.network, [completed]) == afterMark;
          assert ApplyEvents(afterMark, args.network, seed) == after;
          FrontfillRoundTrip(afterMark, args.network, newTop);
          BackfillRoundTrip(table, args.network, BackfillCheckpoint(None, None, true));
          WritesIndependent(afterMark, args.network, BackfillCheckpoint(None, None, true), newTop, BottomSigAttr);
          Success(StepOut(st, fetches, events, after, true))
  }

  /** A processed page writes the frontfill checkpoint only through the early write. */
  lemma AdvanceKeepsFrontfill(args: WalkArgs, st: WalkState, page: seq<SigInfo>, fetches: nat, table: Table)
    requires Valid(args, st) && |page| > 0 && !st.earlyWrite
    ensures var r := Advance(args, st, page, fetches, table);
            ReadFrontfill(r.table, args.network) == ReadFrontfill(table, args.network)
  {
    var r := Advance(args, st, page, fetches, table);
    FrontfillWritesDecideItem(table, args.network, r.events, FrontfillOf(r.next.newTop.value));
  }

  /** index.ts:247-262: once backfill reaches the end of history, the frontfill checkpoint is
      read back after the completion mark and seeded with the frontier only when it has no
      anchor; an existing anchor is left as it is. */
  lemma FinishSeedsOnlyWithoutAnchor(args: WalkArgs, st: WalkState, fetches: nat, table: Table)
    requires Valid(args, st)
    ensures !st.first && !args.backfillComplete && ReadFrontfill(table, args.network).Success? ==>
      var r := Finish(args, st, fetches, table);
      && r.Success?
      && r.value.events == [PutBackfill(BackfillCheckpoint(None, None, true))]
                           + (if ReadFrontfill(table, args.network).value.oldTop.None? then [PutFrontfill(FrontfillOf(st.newTop.value))] else [])
    ensures var r := Finish(args, st, fetches, table);
            r.Success? && !args.backfillComplete && HasAnchor(table, args.network) ==>
              CountFrontfillWrites(r.value.events) == 0 && ReadFrontfill(r.value.table, args.network) == ReadFrontfill(table, args.network)
  {
    if !st.first && !args.backfillComplete {
      WritesIndependent(table, args.network, BackfillCheckpoint(None, None, true), FrontfillOf(st.newTop.value), BottomSigAttr);
    }
  }

  /** The entries of an oldest-first page that survive the tie deduplication. */
  ghost function Kept(args: WalkArgs, st: WalkState, page: seq<SigInfo>): seq<SigInfo> {
    Without(page, Dropped(page, args.backfillComplete, st.tie, st.prevBottom, args.boundary))
  }

  /** index.ts:87-265 on a fetched (reversed) page. */
  function Process(args: WalkArgs, st: WalkState, page: seq<SigInfo>, fetches: nat, table: Table): (r: Result<StepOut, WalkError>)
    requires Valid(args, st)
    ensures r.Success? ==> Valid(args, r.value.next) && r.value.fetches == fetches
    ensures r.Success? ==> r.value.table == ApplyEvents(table, args.network, r.value.events)
    ensures r.Success? && !r.value.done ==> CountFrontfillWrites(r.value.events) == (if st.earlyWrite then 1 else 0)
    ensures r.Success? && r.value.done ==> Batches(r.value.events) == [] && CountFrontfillWrites(r.value.events) <= 1
    ensures r.Success? && r.value.done && st.first ==> r.value.events == [] && r.value.table == table
    ensures r.Success? ==> forall e :: e in r.value.events && e.PutFrontfill? ==>
      r.value.next.newTop.Some? && e.frontfill == FrontfillOf(r.value.next.newTop.value)
    ensures r.Success? && st.newTop.Some? ==> r.value.next.newTop == st.newTop
    ensures r.Success? && r.value.done ==> r.value.next.first == st.first && r.value.next.newTop == st.newTop
    ensures r.Success? && r.value.done && !st.first && args.backfillComplete ==> CountFrontfillWrites(r.value.events) == 1
    ensures r.Success? && r.value.done && !st.first && !args.backfillComplete ==> AnchorSet(r.value.table, args.network, st.newTop.value)
    ensures r.Success? && r.value.done && !st.first && !args.backfillComplete ==> ReadBackfillFixed(r.value.table, args.network) == Success(BackfillCheckpoint(None, None, true))
    ensures r.Success? ==> SparesAnchor(args, st, table, r.value.events)
    ensures r.Success? && !r.value.done && !st.earlyWrite ==> ReadFrontfill(r.value.table, args.network) == ReadFrontfill(table, args.network)
    ensures r.Failure? ==> r.error.CheckpointReadFailed?
  {
    var d := Dedup(page, args.backfillComplete, st.tie, st.prevBottom, args.boundary);
    var st1 := st.(tie := d.tie, prevBottom := d.prevBottom);
    assert Valid(args, st1);
    if |d.page| > 0 then
      var out := Advance(args, st1, d.page, fetches, table);
      assert !st.earlyWrite ==> ReadFrontfill(out.table, args.network) == ReadFrontfill(table, args.network) by {
        if !st.earlyWrite { AdvanceKeepsFrontfill(args, st1, d.page, fetches, table); }
      }
      Success(out)
    else
      var out := Finish(args, st1, fetches, table);
      FinishSeedsOnlyWithoutAnchor(args, st1, fetches, table);
      out
  }

  /** What `Process` does with the page: the call stops exactly when the deduplicated page is
      empty; otherwise that page is published as one batch, its oldest entry becomes the next
      `before`, its newest entry is the frontier of a first page, and a backfill call stores its
      oldest entry as `incomplete_top`. */
  lemma ProcessPublishesKept(args: WalkArgs, st: WalkState, page: seq<SigInfo>, fetches: nat, table: Table)
    requires Valid(args, st)
    ensures var r := Process(args, st, page, fetches, table);
            r.Success? ==> (r.value.done <==> Kept(args, st, page) == [])
    ensures var r := Process(args, st, page, fetches, table);
            r.Success? && !r.value.done ==>
              var kept := Kept(args, st, page);
              && Batches(r.value.events) == [SignaturesOf(kept)]
              && FetchBounds(r.value.next) == (Some(kept[0].signature), args.until)
              && r.value.next.newTop == (if st.first then Some(CursorOf(kept[|kept| - 1])) else st.newTop)
              && (!args.backfillComplete ==> r.value.events[|r.value.events| - 1] == PutBackfill(BackfillCheckpoint(Some(kept[0].signature), None, false)))
  {
    var d := Dedup(page, args.backfillComplete, st.tie, st.prevBottom, args.boundary);
    assert d.page == Kept(args, st, page);
  }

  /** One pass of the do-while body: fetch with retries, then process the page. */
  function Step(args: WalkArgs, st: WalkState, responses: seq<Response>, table: Table): (r: Result<StepOut, WalkError>)
    requires Valid(args, st)
    ensures r.Success? ==> 1 <= r.value.fetches <= MaxFetches && r.value.fetches <= |responses|
    ensures r.Success? ==> r == Process(args, st, Reverse(responses[r.value.fetches - 1]), r.value.fetches, table)
    ensures r.Success? ==> forall k :: 0 <= k < r.value.fetches - 1 ==> responses[k] == []
    ensures r.Success? && Reverse(responses[r.value.fetches - 1]) == [] ==> r.value.fetches == MaxFetches
    ensures r.Failure? && r.error == RpcFailed <==> |responses| < MaxFetches && forall k :: 0 <= k < |responses| ==> responses[k] == []
  {
    var f :- FetchWithRetries(responses);
    Process(args, st, f.page, f.fetches, table)
  }

  /** What one pass hands to the rest of the call, stated about `Step` alone. */
  lemma StepHandsOver(args: WalkArgs, st: WalkState, responses: seq<Response>, table: Table)
    requires Valid(args, st)
    ensures var r := Step(args, st, responses, table);
            r.Success? ==>
              && Valid(args, r.value.next)
              && r.value.fetches <= |responses| && 1 <= r.value.fetches <= MaxFetches
              && r.value.table == ApplyEvents(table, args.network, r.value.events)
              && (st.newTop.Some? ==> r.value.next.newTop == st.newTop)
              && (forall e :: e in r.value.events && e.PutFrontfill? ==>
                    r.value.next.newTop.Some? && e.frontfill == FrontfillOf(r.value.next.newTop.value))
              && SparesAnchor(args, st, table, r.value.events)
    ensures var r := Step(args, st, responses, table);
            r.Success? && r.value.done ==>
              && CountFrontfillWrites(r.value.events) <= 1
              && r.value.next.first == st.first && r.value.next.newTop == st.newTop
              && (!st.first && args.backfillComplete ==> CountFrontfillWrites(r.value.events) == 1)
              && (!st.first && !args.backfillComplete ==> AnchorSet(r.value.table, args.network, st.newTop.value))
              && (!st.first && !args.backfillComplete ==> ReadBackfillFixed(r.value.table, args.network) == Success(BackfillCheckpoint(None, None, true)))
    ensures var r := Step(args, st, responses, table);
            r.Success? && !r.value.done ==>
              && !r.value.next.earlyWrite && r.value.next.newTop.Some?
              && CountFrontfillWrites(r.value.events) == (if st.earlyWrite then 1 else 0)
              && (!st.earlyWrite ==> ReadFrontfill(r.value.table, args.network) == ReadFrontfill(table, args.network))
  {
  }

  // ----- the whole call -----

  /** What a call leaves behind: its loop variables (`top` and `bottom` are what it returns),
      the events it issued, the table, whether it reached the `break`, and the fetches made. */
  datatype WalkRun = WalkRun(state: WalkState, events: seq<Event>, table: Table, finished: bool, fetches: nat)

  /** The do-while loop of index.ts:61-271 for at most `fuel` iterations; `finished` is false
      when the fuel ran out before an empty page ended the walk. */
  function Walk(args: WalkArgs, st: WalkState, responses: seq<Response>, table: Table, fuel: nat): (r: Result<WalkRun, WalkError>)
    requires Valid(args, st)
    ensures r.Success? ==> Valid(args, r.value.state)
    ensures r.Success? ==> r.value.fetches <= |responses| && r.value.fetches <= MaxFetches * fuel
    ensures r.Success? ==> r.value.table == ApplyEvents(table, args.network, r.value.events)
    ensures r.Success? && st.newTop.Some? ==> r.value.state.newTop == st.newTop
    ensures r.Success? ==> forall e :: e in r.value.events && e.PutFrontfill? ==>
      r.value.state.newTop.Some? && e.frontfill == FrontfillOf(r.value.state.newTop.value)
    ensures r.Success? ==> CountFrontfillWrites(r.value.events) <= if st.earlyWrite then 2 else 1
    ensures r.Success? && r.value.finished && !r.value.state.first && (args.backfillComplete || st.earlyWrite) ==>
      CountFrontfillWrites(r.value.events) >= 1
    ensures r.Success? && r.value.finished && !r.value.state.first && !args.backfillComplete ==>
      AnchorSet(r.value.table, args.network, r.value.state.newTop.value)
    ensures r.Success? && r.value.finished && !r.value.state.first && !args.backfillComplete ==>
      ReadBackfillFixed(r.value.table, args.network) == Success(BackfillCheckpoint(None, None, true))
    ensures r.Success? ==> SparesAnchor(args, st, table, r.value.events)
    decreases fuel, 1
  {
    if fuel == 0 then Success(WalkRun(st, [], table, false, 0))
    else
      StepHandsOver(args, st, responses, table);
      var out :- Step(args, st, responses, table);
      if out.done then Success(WalkRun(out.next, out.events, out.table, true, out.fetches))
      else WalkOn(args, st, out, responses, table, fuel)
  }

  /** The rest of a call after a pass that processed a page (`out`): the remaining passes, with
      the events of `out` in front. It promises what `Walk` promises. */
  function WalkOn(args: WalkArgs, st: WalkState, out: StepOut, responses: seq<Response>, table: Table, fuel: nat): (r: Result<WalkRun, WalkError>)
    requires fuel > 0 && Valid(args, out.next) && !out.next.earlyWrite && out.next.newTop.Some?
    requires out.fetches <= |responses| && out.fetches <= MaxFetches
    requires out.table == ApplyEvents(table, args.network, out.events)
    requires st.newTop.Some? ==> out.next.newTop == st.newTop
    requires forall e :: e in out.events && e.PutFrontfill? ==> e.frontfill == FrontfillOf(out.next.newTop.value)
    requires CountFrontfillWrites(out.events) == if st.earlyWrite then 1 else 0
    requires !st.earlyWrite ==> ReadFrontfill(out.table, args.network) == ReadFrontfill(table, args.network)
    ensures r.Success? ==> Valid(args, r.value.state)
    ensures r.Success? ==> r.value.fetches <= |responses| && r.value.fetches <= MaxFetches * fuel
    ensures r.Success? ==> r.value.table == ApplyEvents(table, args.network, r.value.events)
    ensures r.Success? && st.newTop.Some? ==> r.value.state.newTop == st.newTop
    ensures r.Success? ==> forall e :: e in r.value.events && e.PutFrontfill? ==>
      r.value.state.newTop.Some? && e.frontfill == FrontfillOf(r.value.state.newTop.value)
    ensures r.Success? ==> CountFrontfillWrites(r.value.events) <= if st.earlyWrite then 2 else 1
    ensures r.Success? && r.value.finished && !r.value.state.first && (args.backfillComplete || st.earlyWrite) ==>
      CountFrontfillWrites(r.value.events) >= 1
    ensures r.Success? && r.value.finished && !r.value.state.first && !args.backfillComplete ==>
      AnchorSet(r.value.table, args.network, r.value.state.newTop.value)
    ensures r.Success? && r.value.finished && !r.value.state.first && !args.backfillComplete ==>
      ReadBackfillFixed(r.value.table, args.network) == Success(BackfillCheckpoint(None, None, true))
    ensures r.Success? ==> SparesAnchor(args, st, table, r.value.events)
    decreases fuel, 0
  {
    var rest :- Walk(args, out.next, responses[out.fetches..], out.table, fuel - 1);
    SparesAnchorChain(args, st, out.next, table, out.events, out.table, rest.events);
    ApplyEventsAppend(table, args.network, out.events, rest.events);
    CountAppend(out.events, rest.events);
    Success(WalkRun(rest.state, out.events + rest.events, rest.table, rest.finished, out.fetches + rest.fetches))
  }

  /** `SparesAnchor` composes over a processed page that leaves the frontfill checkpoint
      readable as before and the rest of the call. */
  lemma SparesAnchorChain(args: WalkArgs, st: WalkState, mid: WalkState, table: Table, e1: seq<Event>, t1: Table, e2: seq<Event>)
    requires SparesAnchor(args, st, table, e1) && SparesAnchor(args, mid, t1, e2) && !mid.earlyWrite
    requires !st.earlyWrite ==> ReadFrontfill(t1, args.network) == ReadFrontfill(table, args.network)
    ensures SparesAnchor(args, st, table, e1 + e2)
  {
    CountAppend(e1, e2);
  }

  /** The frontfill item is decided by the frontfill writes alone: with none, the frontfill
      reader sees what it saw before; otherwise, when all of them carry the same record, the
      item holds that record. */
  lemma {:induction false} FrontfillWritesDecideItem(table: Table, network: string, events: seq<Event>, f: FrontfillCheckpoint)
    requires forall e :: e in events && e.PutFrontfill? ==> e.frontfill == f
    ensures CountFrontfillWrites(events) == 0 ==> ReadFrontfill(ApplyEvents(table, network, events), network) == ReadFrontfill(table, network)
    ensures CountFrontfillWrites(events) > 0 ==> ApplyEvents(table, network, events) == ApplyEvents(table, network, events)[FrontfillId(network) := EncodeFrontfill(network, f)]
    decreases |events|
  {
    if events != [] {
      var e := events[0];
      var t1 := ApplyEvent(table, network, e);
      assert forall x :: x in events[1..] ==> x in events;
      FrontfillWritesDecideItem(t1, network, events[1..], f);
      if e.PutBackfill? {
        WritesIndependent(table, network, e.backfill, f, BottomSigAttr);
      }
      if CountFrontfillWrites(events[1..]) == 0 && e.PutFrontfill? {
        var t2 := ApplyEvents(t1, network, events[1..]);
        assert t1[FrontfillId(network)] == EncodeFrontfill(network, f);
        FrontfillUntouched(t1, network, events[1..]);
        assert t2[FrontfillId(network)] == EncodeFrontfill(network, f);
        assert t2 == t2[FrontfillId(network) := EncodeFrontfill(network, f)];
      }
    }
  }

  /** Events without a frontfill write leave the frontfill item as it is. */
  lemma {:induction false} FrontfillUntouched(table: Table, network: string, events: seq<Event>)
    requires CountFrontfillWrites(events) == 0
    requires FrontfillId(network) in table
    ensures FrontfillId(network) in ApplyEvents(table, network, events)
    ensures ApplyEvents(table, network, events)[FrontfillId(network)] == table[FrontfillId(network)]
    decreases |events|
  {
    if events != [] {
      IdsDistinct(network);
      FrontfillUntouched(ApplyEvent(table, network, events[0]), network, events[1..]);
    }
  }

  /** A backfill call that owes no early write leaves an anchored frontfill checkpoint exactly
      as it found it: the completing write (index.ts:238-263) only seeds a missing anchor. */
  lemma BackfillWalkKeepsAnchor(args: WalkArgs, st: WalkState, responses: seq<Response>, table: Table, fuel: nat)
    requires Valid(args, st)
    ensures var r := Walk(args, st, responses, table, fuel);
            r.Success? && !args.backfillComplete && !st.earlyWrite && HasAnchor(table, args.network) ==>
              && CountFrontfillWrites(r.value.events) == 0
              && ReadFrontfill(r.value.table, args.network) == ReadFrontfill(table, args.network)
  {
    var r := Walk(args, st, responses, table, fuel);
    if r.Success? && !args.backfillComplete && !st.earlyWrite && HasAnchor(table, args.network) {
      var run := r.value;
      var f := if run.state.newTop.Some? then FrontfillOf(run.state.newTop.value) else NoFrontfill;
      FrontfillWritesDecideItem(table, args.network, run.events, f);
    }
  }

  /** The backfill item as the writer stores it: present, with a string `incomplete_top` and
      without a `bottom` attribute. */
  predicate LacksReaderBottom(table: Table, network: string) {
    && BackfillId(network) in table
    && GetS(table[BackfillId(network)], IncompleteTopAttr).Success?
    && ReaderBottomAttr !in table[BackfillId(network)]
  }

  /** Once any backfill write has been applied, the backfill item lacks `bottom` for good: no
      event a call issues ever stores that attribute. */
  lemma {:induction false} BackfillWriteHidesBottom(table: Table, network: string, events: seq<Event>)
    ensures LacksReaderBottom(table, network) || (exists e :: e in events && e.PutBackfill?) ==>
      LacksReaderBottom(ApplyEvents(table, network, events), network)
    decreases |events|
  {
    if events != [] {
      var t1 := ApplyEvent(table, network, events[0]);
      IdsDistinct(network);
      if events[0].PutBackfill? {
        assert ReaderBottomAttr !in EncodeBackfill(network, events[0].backfill);
      }
      assert LacksReaderBottom(table, network) || events[0].PutBackfill? ==> LacksReaderBottom(t1, network);
      if exists e :: e in events && e.PutBackfill? {
        var e :| e in events && e.PutBackfill?;
        assert e == events[0] || e in events[1..];
      }
      BackfillWriteHidesBottom(t1, network, events[1..]);
    }
  }

  /** Whatever a call writes to the frontfill checkpoint is its frontier: the newest entry of
      its first non-empty page, never the newest entry of a later page. */
  lemma WalkLeavesFrontier(args: WalkArgs, st: WalkState, responses: seq<Response>, table: Table, fuel: nat)
    requires Valid(args, st)
    requires Walk(args, st, responses, table, fuel).Success?
    ensures var run := Walk(args, st, responses, table, fuel).value;
            CountFrontfillWrites(run.events) > 0 ==>
              && run.state.newTop.Some?
              && ReadFrontfill(run.table, args.network) == Success(NormalizeFrontfill(FrontfillOf(run.state.newTop.value)))
  {
    var run := Walk(args, st, responses, table, fuel).value;
    if CountFrontfillWrites(run.events) > 0 {
      CountedWriteExists(run.events);
      var e :| e in run.events && e.PutFrontfill?;
      assert run.state.newTop.Some?;
      var f := FrontfillOf(run.state.newTop.value);
      FrontfillWritesDecideItem(table, args.network, run.events, f);
      var t := run.table;
      assert t == WriteFrontfill(t, args.network, f);
      FrontfillRoundTrip(t, args.network, f);
    }
  }

  lemma {:induction false} CountedWriteExists(events: seq<Event>)
    requires CountFrontfillWrites(events) > 0
    ensures exists e :: e in events && e.PutFrontfill?
    decreases |events|
  {
    if !events[0].PutFrontfill? {
      CountedWriteExists(events[1..]);
      var e :| e in events[1..] && e.PutFrontfill?;
      assert e in events;
    }
  }

  /** Backfill never deduplicates: each batch is the whole fetched response, oldest first. */
  lemma BackfillPublishesWholePage(args: WalkArgs, st: WalkState, responses: seq<Response>, table: Table)
    requires Valid(args, st) && !args.backfillComplete
    requires Step(args, st, responses, table).Success?
    ensures var out := Step(args, st, responses, table).value;
            !out.done ==> Batches(out.events) == [SignaturesOf(Reverse(responses[out.fetches - 1]))]
  {
    assert FetchWithRetries(responses).Success?;
    var f := FetchWithRetries(responses).value;
    assert f.page == Reverse(responses[f.fetches - 1]);
    assert Step(args, st, responses, table) == Process(args, st, f.page, f.fetches, table);
    BackfillKeepsPage(args, st, f.page, f.fetches, table);
  }

  /** `BackfillPublishesWholePage` for one page. */
  lemma BackfillKeepsPage(args: WalkArgs, st: WalkState, page: seq<SigInfo>, fetches: nat, table: Table)
    requires Valid(args, st) && !args.backfillComplete
    ensures var r := Process(args, st, page, fetches, table);
            r.Success? && !r.value.done ==> Batches(r.value.events) == [SignaturesOf(page)]
  {
    ProcessPublishesKept(args, st, page, fetches, table);
    WithoutKeepsOthers(page, {});
    assert Kept(args, st, page) == page;
  }

  /** A frontfill call (or a fresh backfill call) that processed a page and reached its end
      leaves its frontier readable in the frontfill checkpoint. */
  lemma FinishedWalkRecordsFrontier(args: WalkArgs, st: WalkState, responses: seq<Response>, table: Table, fuel: nat)
    requires Valid(args, st) && (args.backfillComplete || st.earlyWrite)
    ensures var r := Walk(args, st, responses, table, fuel);
            r.Success? && r.value.finished && !r.value.state.first ==>
              ReadFrontfill(r.value.table, args.network) == Success(NormalizeFrontfill(FrontfillOf(r.value.state.newTop.value)))
  {
    if Walk(args, st, responses, table, fuel).Success? {
      WalkLeavesFrontier(args, st, responses, table, fuel);
    }
  }
}

/** A worked run of a fresh backfill: three signatures on the first page, then five empty
    fetches. */
module WalkerScenario {
  import opened Base
  import opened Signatures
  import opened Checkpoint
  import opened TieDedup
  import opened Walker

  const A: SigInfo := SigInfo("A", 10, 1)
  const B: SigInfo := SigInfo("B", 20, 2)
  const C: SigInfo := SigInfo("C", 30, 3)

  const FreshArgs: WalkArgs := WalkArgs("net", None, None, false, NoBoundary)

  /** The RPC's answers, newest first within each page. */
  const Responses: seq<Response> := [[C, B, A], [], [], [], [], []]

  const Top: FrontfillCheckpoint := FrontfillCheckpoint(Some("C"), Some(30), Some(3))
  const FirstEvents: seq<Event> := [PutFrontfill(Top), Publish(["A", "B", "C"]), PutBackfill(BackfillCheckpoint(Some("A"), None, false))]
  const LastEvents: seq<Event> := [PutBackfill(BackfillCheckpoint(None, None, true))]

  /** The loop variables after the first page. */
  const AfterFirst: WalkState := WalkState(CursorOf(A), UntilCursor(FreshArgs), false, Some(CursorOf(C)), NoCursor, FreshTieSet, false)

  const T1: Table := WriteBackfill(WriteFrontfill(map[], "net", Top), "net", BackfillCheckpoint(Some("A"), None, false))
  const T2: Table := WriteBackfill(T1, "net", BackfillCheckpoint(None, None, true))

  /** First pass: one fetch, the reversed page published whole, the frontier written first. */
  lemma FirstPass()
    ensures Step(FreshArgs, Init(FreshArgs), Responses, map[]) == Success(StepOut(AfterFirst, 1, FirstEvents, T1, false))
  {
    var st0 := Init(FreshArgs);
    assert Reverse(Responses[0]) == [A, B, C];
    assert FetchWithRetries(Responses) == Success(Fetched([A, B, C], 1));
    assert SignaturesOf([A, B, C]) == ["A", "B", "C"];
    var d := Dedup([A, B, C], false, st0.tie, st0.prevBottom, NoBoundary);
    assert d.page == [A, B, C] && d.tie == st0.tie && d.prevBottom == st0.prevBottom;
    assert st0.(tie := d.tie, prevBottom := d.prevBottom) == st0;
    var adv := Advance(FreshArgs, st0, [A, B, C], 1, map[]);
    assert FrontfillOf(CursorOf(C)) == Top;
    assert adv.events == FirstEvents;
    assert adv.next == AfterFirst;
    var t0 := WriteFrontfill(map[], "net", Top);
    assert ApplyEvents(T1, "net", FirstEvents[3..]) == T1;
    assert ApplyEvents(t0, "net", FirstEvents[2..]) == T1;
    assert ApplyEvents(t0, "net", FirstEvents[1..]) == T1;
    assert ApplyEvents(map[], "net", FirstEvents) == T1;
    assert Process(FreshArgs, st0, [A, B, C], 1, map[]) == Success(adv);
  }

  /** Second pass: five empty fetches end the walk; backfill is marked complete and the
      frontfill anchor already present is kept. */
  lemma SecondPass()
    ensures Step(FreshArgs, AfterFirst, Responses[1..], T1) == Success(StepOut(AfterFirst, 5, LastEvents, T2, true))
    ensures ReadFrontfill(T2, "net") == Success(Top)
  {
    var rest := Responses[1..];
    assert RetryFrom(rest, 5) == Success(Fetched([], 5));
    assert RetryFrom(rest, 1) == Success(Fetched([], 5));
    assert FetchWithRetries(rest) == Success(Fetched([], 5));
    var d := Dedup([], false, AfterFirst.tie, AfterFirst.prevBottom, NoBoundary);
    assert d.page == [] && AfterFirst.(tie := d.tie, prevBottom := d.prevBottom) == AfterFirst;
    IdsDistinct("net");
    FrontfillRoundTrip(map[], "net", Top);
    assert ReadFrontfill(T2, "net") == Success(Top);
    var completed := PutBackfill(BackfillCheckpoint(None, None, true));
    assert ApplyEvent(T1, FreshArgs.network, completed) == T2;
    assert ReadFrontfill(T2, FreshArgs.network).value.oldTop.Some?;
    assert [completed] + [] == LastEvents;
    assert Finish(FreshArgs, AfterFirst, 5, T1) == Success(StepOut(AfterFirst, 5, LastEvents, T2, true));
    assert Process(FreshArgs, AfterFirst, [], 5, T1) == Success(StepOut(AfterFirst, 5, LastEvents, T2, true));
  }

  /** The newest signature goes to the frontfill checkpoint before anything is published, the
      page is published oldest first, the backfill cursor follows its oldest entry, and the
      empty page marks backfill complete without touching the frontfill anchor. */
  lemma FreshBackfillRun()
    ensures var run := Walk(FreshArgs, Init(FreshArgs), Responses, map[], 2);
            && run.Success?
            && run.value.finished
            && run.value.fetches == 6
            && run.value.events == FirstEvents + LastEvents
            && ReadFrontfill(run.value.table, "net") == Success(Top)
            && ReadBackfillFixed(run.value.table, "net") == Success(BackfillCheckpoint(None, None, true))
  {
    FirstPass();
    SecondPass();
    assert Responses[1..] == Responses[1..][..];
    assert Walk(FreshArgs, AfterFirst, Responses[1..], T1, 1) == Success(WalkRun(AfterFirst, LastEvents, T2, true, 5));
    BackfillRoundTrip(T1, "net", BackfillCheckpoint(None, None, true));
  }
}

=== FILE: watchdog.dfy ===
/** The stall watchdog of `main` (index.ts:287-317): every thirty minutes it reads both
    checkpoints and ends the process when none of the six decoded fields differs (`===`) from
    what the previous tick saw; otherwise the fresh values become the new baseline. */
module Watchdog {
  import opened Base
  import opened Checkpoint
  import opened Walker
  import opened Orchestrator

  /** The six fields the watchdog compares. `complete` is optional because the baseline starts
      out with every field `undefined`, which no decoded record has. */
  datatype Snapshot = Snapshot(
    incompleteTop: Option<string>,
    bottomSig: Option<string>,
    complete: Option<bool>,
    oldTop: Option<string>,
    oldTopBlockTime: Option<int>,
    oldTopSlot: Option<int>)

  /** `prev_backfill` / `prev_frontfill` before the first tick (index.ts:287-297). */
  const InitialBaseline: Snapshot := Snapshot(None, None, None, None, None, None)

  /** The decoded pair of checkpoints as the watchdog holds it. */
  function SnapshotOf(b: BackfillCheckpoint, f: FrontfillCheckpoint): (s: Snapshot)
    ensures s.complete.Some? && s != InitialBaseline
  {
    Snapshot(b.incompleteTop, b.bottomSig, Some(b.complete), f.oldTop, f.oldTopBlockTime, f.oldTopSlot)
  }

  datatype Verdict = Exit | Continue(baseline: Snapshot)

  /** index.ts:301-316: a field-by-field comparison against the baseline. */
  function Tick(baseline: Snapshot, b: BackfillCheckpoint, f: FrontfillCheckpoint): (v: Verdict)
    ensures v.Exit? <==> baseline == SnapshotOf(b, f)
    ensures v.Continue? ==> v.baseline == SnapshotOf(b, f)
  {
    if && b.incompleteTop == baseline.incompleteTop
       && b.bottomSig == baseline.bottomSig
       && Some(b.complete) == baseline.complete
       && f.oldTop == baseline.oldTop
       && f.oldTopBlockTime == baseline.oldTopBlockTime
       && f.oldTopSlot == baseline.oldTopSlot
    then Exit
    else Continue(SnapshotOf(b, f))
  }

  /** One tick against the table: both reads (backfill first, its lower bound taken from the
      attribute `bottomAttr`), then the comparison. A read that throws is a `Failure`. The tick
      ends the process exactly when both records decode to what the baseline was taken from. */
  function CheckWith(table: Table, network: string, baseline: Snapshot, bottomAttr: string): (r: Result<Verdict, ReadError>)
    ensures r.Failure? <==> ReadBackfillAs(table, network, bottomAttr).Failure? || ReadFrontfill(table, network).Failure?
    ensures r == Success(Exit) <==>
      && baseline.complete.Some?
      && ReadBackfillAs(table, network, bottomAttr) == Success(BackfillCheckpoint(baseline.incompleteTop, baseline.bottomSig, baseline.complete.value))
      && ReadFrontfill(table, network) == Success(FrontfillCheckpoint(baseline.oldTop, baseline.oldTopBlockTime, baseline.oldTopSlot))
    ensures r.Success? && r.value.Continue? ==>
      SnapshotOf(ReadBackfillAs(table, network, bottomAttr).value, ReadFrontfill(table, network).value) == r.value.baseline != baseline
  {
    var b :- ReadBackfillAs(table, network, bottomAttr);
    var f :- ReadFrontfill(table, network);
    Success(Tick(baseline, b, f))
  }

  /** The tick through the reader that takes the lower bound from `bottom_sig`. */
  function Check(table: Table, network: string, baseline: Snapshot): (r: Result<Verdict, ReadError>)
    ensures r.Failure? <==> ReadBackfillFixed(table, network).Failure? || ReadFrontfill(table, network).Failure?
    ensures r == Success(Exit) <==>
      && baseline.complete.Some?
      && ReadBackfillFixed(table, network) == Success(BackfillCheckpoint(baseline.incompleteTop, baseline.bottomSig, baseline.complete.value))
      && ReadFrontfill(table, network) == Success(FrontfillCheckpoint(baseline.oldTop, baseline.oldTopBlockTime, baseline.oldTopSlot))
    ensures r.Success? && r.value.Continue? ==>
      SnapshotOf(ReadBackfillFixed(table, network).value, ReadFrontfill(table, network).value) == r.value.baseline != baseline
  {
    CheckWith(table, network, baseline, BottomSigAttr)
  }

  // ----- properties -----

  /** Two snapshots agree exactly when both decoded records do. */
  lemma SnapshotInjective(b1: BackfillCheckpoint, f1: FrontfillCheckpoint, b2: BackfillCheckpoint, f2: FrontfillCheckpoint)
    ensures SnapshotOf(b1, f1) == SnapshotOf(b2, f2) <==> b1 == b2 && f1 == f2
  {
  }

  /** The first tick never ends the process: the initial baseline matches no decoded pair. */
  lemma FirstTickNeverExits(b: BackfillCheckpoint, f: FrontfillCheckpoint)
    ensures Tick(InitialBaseline, b, f) == Continue(SnapshotOf(b, f))
  {
  }

  /** The process ends at a tick exactly when neither checkpoint reads back differently from
      the previous tick; any change keeps it alive and moves the baseline. */
  lemma ExitIffUnchanged(before: Table, after: Table, network: string)
    requires ReadBackfillFixed(before, network).Success? && ReadFrontfill(before, network).Success?
    requires ReadBackfillFixed(after, network).Success? && ReadFrontfill(after, network).Success?
    ensures var baseline := SnapshotOf(ReadBackfillFixed(before, network).value, ReadFrontfill(before, network).value);
            Check(after, network, baseline) == Success(Exit) <==>
              ReadBackfillFixed(after, network) == ReadBackfillFixed(before, network)
              && ReadFrontfill(after, network) == ReadFrontfill(before, network)
  {
    SnapshotInjective(ReadBackfillFixed(before, network).value, ReadFrontfill(before, network).value,
                      ReadBackfillFixed(after, network).value, ReadFrontfill(after, network).value);
  }

  /** A frontfill pass over a quiet address leaves both checkpoints as they were, so if no
      other pass ran between two ticks the watchdog ends the process. */
  lemma IdleFrontfillTripsWatchdog(table: Table, network: string, frontfillOnly: bool, responses: seq<Response>, fuel: nat)
    requires Plan(table, network, frontfillOnly).Success? && Plan(table, network, frontfillOnly).value.WalkFrontfill?
    requires fuel > 0 && |responses| >= MaxFetches
    requires forall k :: 0 <= k < MaxFetches ==> responses[k] == []
    ensures ReadFrontfill(table, network).Success?
    ensures var baseline := SnapshotOf(ReadBackfillFixed(table, network).value, ReadFrontfill(table, network).value);
            var after := RunPass(table, network, frontfillOnly, responses, fuel).value.table;
            Check(after, network, baseline) == Success(Exit)
  {
    IdleFrontfillPassWritesNothing(table, network, frontfillOnly, responses, fuel);
    ExitIffUnchanged(table, table, network);
  }

  /** With the backfill reader as written, a tick after any backfill write fails on the missing
      `bottom` attribute, whatever was written after it. */
  lemma AsWrittenTickFailsAfterBackfillWrite(table: Table, network: string, events: seq<Event>, later: seq<Event>, baseline: Snapshot)
    ensures (exists e :: e in events && e.PutBackfill?) ==>
      CheckWith(ApplyEvents(ApplyEvents(table, network, events), network, later), network, baseline, ReaderBottomAttr)
        == Failure(MissingAttribute(ReaderBottomAttr))
  {
    if exists e :: e in events && e.PutBackfill? {
      var t1 := ApplyEvents(table, network, events);
      BackfillWriteHidesBottom(table, network, events);
      BackfillWriteHidesBottom(t1, network, later);
    }
  }
}
